=== FILE: README.md ===
# LARP bot game lifecycle, in Dafny

This project models the per-channel game lifecycle of a Discord bot that runs
live-action role-playing games. The bot's game master is a text-completion
service. The program is a single Python file, `bot.py`. The model is written as
pure functions over immutable registries.

- **Lobby.** `!start_game` opens a lobby. Users join by reacting with 👍. After a
  join window, the lobby is cancelled if fewer than two players joined.
- **Votes.** Players vote on a genre (16 options), then on a language (English,
  Traditional Chinese or both). Votes are reactions on a message. The genre
  vote breaks ties at random among the leaders. The language vote takes the
  first leader in option order. The bot adds every option's reaction itself,
  so a vote nobody joined reads as an all-zero tally, not an empty one (see
  "## Findings").
- **Promotion.** The lobby becomes a running game: a state record, a roster, a
  story history and a language for the channel.
- **Play.** Messages from rostered players that are not commands become turns.
  A reply starting with `[GAME_COMPLETE]` ends the game. Any other reply
  becomes the new scene and is logged in the story history. `!end_game` stops
  a game.
- **Chunking.** Long texts are split into labelled parts of at most 2000
  characters.

Files and modules:

- `common.dfy` (`Common`): `Option`, `Result`, and `Fault`. `Fault` is the
  `KeyError` the code can raise.
- `text.dfy` (`Text`): the Python string operations used. These are `isspace`,
  `lstrip`, `rfind`, `startswith`, `replace(pat, "")` and `str(n)`.
- `chunking.dfy` (`Chunking`): `send_long_message`.
- `votes.dfy` (`Votes`): the genre and language catalogues, the reaction
  tally, and both tie policies.
- `wording.dfy` (`Wording`): `get_title`, `get_error_message`, and the error
  fallback of `get_ai_response`.
- `registry.dfy` (`Registry`): the `GameData` and `GameSetupState` registries,
  their well-formedness, and the session teardown.
- `setup.dfy` (`Setup`): `start_game`, `on_reaction_add`, lobby close,
  `cleanup_setup_state`, the genre step, and the writes of
  `start_game_session`.
- `play.dfy` (`Play`): the `on_message` gate, `process_action`,
  `update_story_message`, `handle_game_completion` and `end_game`.

Modelling choices:

- **Inputs.** Randomness, the completion service and Discord are inputs.
  `random.choice` is an index `roll` below the candidate count. A completion is
  `Replied(text)` or `Failed`. A fetched vote message is its list of
  `(emoji, count)` reactions.
- **Steps.** A step is a function from registries to registries. Most steps
  are one coroutine stretch between two suspension points. These steps merge
  several stretches, and "## Left out" says what each hides:
  - the `Cancelled` outcome of `Setup.CloseLobby`, across the send at bot.py:177;
  - `Setup.Promote`, across bot.py:495-611;
  - `Setup.SessionWith`, with `Setup.StartGameSession` and `Setup.StartGameSessionCorrected` built on it, across bot.py:364-390, 495-611 and the send inside bot.py:619;
  - `Play.EndGame`, across bot.py:642;
  - the completing branch of `Play.ProcessAction`, across bot.py:822 and 797.
- **Errors.** An uncaught `KeyError` is returned as data: an `Effect` (or
  `Result`) carrying the registries as they stand at the raise.

The model follows the code in these places, even where the bot's own
messages suggest otherwise:

- A language tie goes to the first leader in `LANGUAGE_OPTIONS` order
  (`max` over dict items). It is not drawn at random.
- When the completion service fails during play, the apology text replaces
  the current scene. The apology is `get_ai_response`'s fallback return value.
- A turn appends a story event only when both the message text and the
  author's name are non-empty (`if action and actor`). Without text, the scene
  changes and nothing is logged.
- No upper bound on players is enforced, although the lobby text says "2-6
  players".
- The "no votes" branches (bot.py:271, bot.py:384) test for an empty vote
  dictionary. That is not the same as "nobody voted", because the bot's own
  reactions always give every option an entry.

## Model

| member | source | states |
|---|---|---|
| Text.LStrip | bot.py:334 | `lstrip()` removes exactly a maximal whitespace prefix: what it drops is all whitespace, what it keeps starts with non-whitespace, and dropped + kept is the input |
| Text.RFind | bot.py:329 | `rfind('\n')` is -1 exactly when there is no newline, otherwise the index of the last one |
| Text.LeadingSpace | bot.py:334 | the number of characters `lstrip()` drops: all of them whitespace, and the next character, if any, is not |
| Text.RemoveAll | bot.py:819 | `replace(marker, "")` never lengthens the text; `Text.RemoveAllAbsent`, `Text.RemoveAllLeading` and `Text.RemoveAllSkips` pin down what it keeps |
| Text.RemoveAllLeading | bot.py:819 | a leading marker is removed and the scan continues right after it |
| Text.RemoveAllAbsent | bot.py:819 | `replace(marker, "")` on text without the marker returns it unchanged |
| Text.RemoveAllSkips | bot.py:819 | characters that start no occurrence of the marker are kept, in order |
| Text.Decimal | bot.py:736 | `str(n)` is a non-empty string of digits with no leading zero except for 0 itself |
| Text.DecimalInjective | bot.py:732-737 | `str(a) == str(b)` exactly when `a == b` for user ids |
| Text.ParseDecimalInvertsDecimal | bot.py:732-737 | the decimal rendering of an id reads back as that id |
| Chunking.SplitPoint | bot.py:329-331 | the cut is just before the last newline among the first 2000 characters, or at 2000 when there is none |
| Chunking.FirstCut | bot.py:329-334 | one turn keeps at most 2000 characters, drops only whitespace, and always consumes at least one character |
| Chunking.FirstCutFits | bot.py:329-334 | the turn's cut satisfies the cutting rule, and the whitespace dropped is all of the leading whitespace that follows |
| Chunking.SplitLoop | bot.py:321-334 | every part has at most 2000 characters, and the parts with the dropped whitespace put back reproduce the input exactly |
| Chunking.SplitLoopFits | bot.py:321-334 | every turn of the loop cuts where the rule says and ends when the text is used up |
| Chunking.CutFitsUnique | bot.py:329-334 | the cutting rule admits only one cut per turn |
| Chunking.FitsOnlySplitLoop | bot.py:321-334 | any run obeying the rule turn by turn is exactly the loop's run |
| Chunking.LeadingNewlineGivesEmptyPart | bot.py:329-334 | when the only newline in the first 2000 characters is at index 0, the first part is empty |
| Chunking.LoopTurn | bot.py:329-334 | one loop turn as written produces the reference turn and a strictly shorter remainder |
| Chunking.SplitParts | bot.py:321-334 | the `while` loop as written returns the reference parts, each at most 2000 characters |
| Chunking.SendLongMessage | bot.py:302-346 | short text is one unlabelled message; long text is one message per part, in order, labelled `Part i/n` with i = 1..n and n the number of parts |
| Chunking.LongMessageReassembles | bot.py:321-346 | the embeds of a long text carry the parts in order, each within 2000 characters, and the parts with the dropped whitespace give back the text |
| Chunking.PartLabel | bot.py:340 | the label starts with "Part " |
| Chunking.PartLabelReadsBack | bot.py:340 | the label reads back: the digits between "Part " and its last "/" are the part number, the digits after it the part count |
| Chunking.PartLabelsDistinct | bot.py:340 | different part numbers give different labels |
| Chunking.Labelled | bot.py:337-346 | an embed carries the part as its description and has the label as its title, or after the given title in parentheses; a plain message is a code block: opening fence, label, ":" and a newline, the part, closing fence, each read back from its place |
| Votes.LastCount | bot.py:266-268 | a genre's count comes from the last reaction with its emoji, and is absent exactly when no reaction has that emoji |
| Votes.Tally | bot.py:264-268 | an option has an entry exactly when its emoji is among the reactions, and the entry is the last such reaction's count less one |
| Votes.MaxVotes | bot.py:276 | `max(vote_counts.values())` bounds every entry and is attained |
| Votes.Leaders | bot.py:278 | the winners list holds exactly the options whose entry equals the maximum, in option order |
| Votes.GenreCandidates | bot.py:271-281 | the draw is from a non-empty list of valid genres |
| Votes.ResolveGenre | bot.py:271-285 | when the dictionary has any entry, the chosen genre's entry equals the maximum |
| Votes.NoEntriesAnyGenre | bot.py:271-272 | when no genre emoji is among the reactions (empty dictionary), every genre can be chosen |
| Votes.EveryLeaderCanWin | bot.py:276-282 | every genre tied for the maximum can be chosen |
| Votes.UniqueLeaderWins | bot.py:283-284 | a strict leader is chosen whatever the random draw |
| Votes.GenreVote | bot.py:264-285 | the genre vote on a fetched message returns a genre with the maximum entry whenever some genre emoji is among the reactions |
| Votes.GenreEntryIffReacted | bot.py:264-268 | a genre takes part in the vote exactly when its emoji is among the reactions |
| Votes.FirstMax | bot.py:388 | `max(items, key=count)` returns the first entry holding the maximum |
| Votes.ResolveLanguage | bot.py:384-388 | with an empty dictionary the language is bilingual; otherwise it has the maximum entry and every earlier option has a strictly smaller one |
| Votes.LanguageTieGoesToEarliest | bot.py:384-388 | a tie goes to the earliest of English, Chinese and bilingual |
| Votes.LanguageVote | bot.py:377-388 | the language vote on a fetched message picks bilingual when no language emoji is among the reactions, and a language with the maximum entry otherwise |
| Votes.AllZeroLanguageGivesEnglish | bot.py:384-388 | an all-zero language tally is not empty, so `max` returns its first item: English |
| Votes.BotReactionsOnlyGiveEnglish | bot.py:367-388 | when only the bot's three reactions are present, the language vote as written picks English |
| Votes.ResolveLanguageCorrected | bot.py:384-388 | corrected: bilingual when no entry is above 0; otherwise a language with the maximum entry, which is above 0, and every earlier option has strictly fewer |
| Votes.CorrectionAgreesWhenSomeoneVoted | bot.py:384-388 | the correction changes the result only when the tally has entries but none is above 0 |
| Votes.LanguageVoteCorrected | bot.py:377-388 | corrected language vote on a fetched message: bilingual when no player voted, otherwise a language with the most votes |
| Votes.BotReactionsOnlyGiveBilingual | bot.py:367-386 | with the correction, a vote only the bot reacted to gives the bilingual default |
| Votes.BotReactionsOnlyTieAllGenres | bot.py:255-282 | a genre vote only the bot reacted to has all entries 0, so it takes the tie branch with maximum 0, and every genre can still be chosen |
| Wording.GetTitle | bot.py:833-839 | titles start with the 🎭 mark, followed by the English text for "en" and the Chinese text for "zh" |
| Wording.TitleFallsBackToBoth | bot.py:838-839 | every code other than "en" and "zh" gets the bilingual title |
| Wording.BilingualTitleExtendsEnglish | bot.py:833-839 | the bilingual title is the English title, " \| ", then the Chinese text |
| Wording.GetErrorMessage | bot.py:842-848 | the DM notice names the user after the prefix of the chosen language |
| Wording.ErrorMessageBilingual | bot.py:842-848 | for any code other than "en" and "zh", the notice is the English notice, a newline, then the Chinese notice |
| Wording.ErrorFallback | bot.py:139-144 | the apology exists exactly for "en", "zh" and "both"; any other code raises `KeyError` |
| Wording.FallbackBilingual | bot.py:139-143 | the bilingual apology is the English one, a blank line, then the Chinese one |
| Wording.AiResponse | bot.py:101-144 | a known language returns the service's text, or the apology when the service fails; an unknown language always raises |
| Registry.EmptyIsWF | bot.py:27-37 | the empty registries are well formed |
| Registry.DropSession | bot.py:825-829 | the teardown succeeds exactly when the channel has active, state and roster entries, and then removes all four of its entries; a missing `active_games`, `game_states` or `game_players` key raises with exactly the earlier deletions made; other channels, history and languages (the channel's own included) are untouched; well-formedness is kept |
| Registry.DropTwiceFaults | bot.py:800 | a second teardown of the same channel raises `KeyError` on `active_games` |
| Setup.StartGame | bot.py:154-160 | refused exactly when the channel has a running game; otherwise the channel gets an open lobby with an empty roster, and nothing else changes |
| Setup.RestartEmptiesLobby | bot.py:159-160 | a second `!start_game` during setup drops everyone who had joined |
| Setup.OnReactionAdd | bot.py:290-299 | bot users, other emoji and channels without a lobby leave everything unchanged; otherwise the user is on the roster afterwards, at most one entry is added, and the existing entries keep their order |
| Setup.ReactionKeepsRosterDistinct | bot.py:297-298 | a roster without repeats stays without repeats |
| Setup.RosterIsFirstReactionOrder | bot.py:290-299 | from a fresh lobby, any sequence of reactions leaves the roster as the distinct 👍 reactors in order of their first reaction |
| Setup.CleanupSetupState | bot.py:622-631 | removes the channel's lobby, preferences, roster and genre; `player_count` and every other channel are untouched |
| Setup.CleanupIdempotent | bot.py:622-631 | cleaning up twice equals cleaning up once |
| Setup.CloseLobby | bot.py:174-179 | a vanished lobby does nothing; fewer than two players cleans the lobby up; otherwise the vote proceeds with at least two players |
| Setup.ChooseGenre | bot.py:287-350 | the genre is recorded; reading the roster back raises `KeyError` exactly when the lobby was cleaned up meanwhile |
| Setup.InitialState | bot.py:444-492 | a fresh record has progress 0 and no completed objectives; parsed objective fields overwrite the defaults, and unparsed ones leave them |
| Setup.OpeningScene | bot.py:443 | the opening scene is the service's text, or the apology in the chosen language |
| Setup.Promote | bot.py:392-619 | the channel becomes active with the given roster, language and initial record, and its history holds the single "Game Started" event; other channels are untouched and well-formedness is kept (writes from both sides of the suspensions at 495-611, merged into one step) |
| Setup.PromotedHistoryMatchesScene | bot.py:614-619 | the opening event records the opening scene |
| Setup.SessionAndLobbyOverlap | bot.py:614-620 | before the final cleanup the channel is both a running game and an open lobby: a new `!start_game` is refused, yet a 👍 still joins the lobby roster; the cleanup then removes that roster |
| Setup.SessionWith | bot.py:287-620 | the roster read at bot.py:350 raises exactly when the lobby is gone, changing nothing but the genre write; otherwise the channel runs a game whose roster is the lobby's and whose language is the one given, and the lobby is gone; other channels are untouched and well-formedness is kept |
| Setup.StartGameSession | bot.py:348-620 | as written: the game gets the lobby's roster and the language vote of bot.py:377-392, and raises exactly when the roster read fails |
| Setup.StartGameSessionCorrected | bot.py:348-620 | corrected: as `StartGameSession`, but with the language default of `Votes.LanguageVoteCorrected` |
| Setup.BotOnlyVoteSessionLanguage | bot.py:367-392 | a game whose language vote only the bot reacted to is played in English as written, and bilingually with the correction |
| Setup.PromoteOverwritesRunningGame | bot.py:614-616 | promotion does not check for a running game and replaces its roster |
| Play.RenderIds | bot.py:736 | the rendered roster has one entry per player, in order, each the decimal rendering of that player's id |
| Play.RenderedIdMember | bot.py:737 | matching `str(id)` against the rendered roster is membership of the id in the roster |
| Play.RouteMessage | bot.py:725-740 | a message is a turn exactly when its author is human and rostered in an active channel and the text does not start with "!"; a missing roster raises, which a well-formed registry rules out |
| Play.SessionLanguage | bot.py:749 | a channel without a stored language plays bilingually |
| Play.ActionReply | bot.py:769 | a turn works with the service's text, or the apology in the session's language |
| Play.PriorHistory | bot.py:692-693 | `update_story_message` starts from the stored history, or from an empty one when the channel has none |
| Play.UpdateStory | bot.py:692-701 | the history gets one event (action, actor, reply) exactly when action and actor are both non-empty |
| Play.RecentEvents | bot.py:708 | the summary shows the last five events, or all when there are fewer |
| Play.EventLines | bot.py:708-710 | the event lines are empty exactly when there are no events, and start with the first event's two lines |
| Play.EventLinesAppend | bot.py:708-710 | the lines follow the events in order: the lines of two runs of events, one after the other, are their lines one after the other |
| Play.StorySummary | bot.py:703-713 | the summary starts with its header and ends with the current scene |
| Play.HandleGameCompletion | bot.py:816-830 | the completion display is no longer than the reply, and the teardown is the session teardown |
| Play.CompletionDisplayStrips | bot.py:819 | a leading marker is removed from the display, and a reply with no further marker shows the rest unchanged |
| Play.SinglePassCanReform | bot.py:819 | removal is a single pass: "[GAME_[GAME_COMPLETE]COMPLETE]" displays as "[GAME_COMPLETE]" |
| Play.PlayOn | bot.py:806-808 | a continuing turn sets the scene to the reply, keeps the session's other tables, and appends at most the one event |
| Play.ProcessAction | bot.py:744-814 | a channel without a state record raises; a reply without the marker continues the game; a reply starting with the marker always raises |
| Play.CompletionAlwaysRaises | bot.py:771-802 | on a routed turn whose reply starts with the marker, `process_action` raises `KeyError` on `active_games` |
| Play.ProcessActionCorrected | bot.py:744-814 | the completing branch tears the session down once |
| Play.CorrectedTurnEndsIffMarker | bot.py:771-808 | on a routed turn the corrected version never raises, and the game ends exactly when the reply starts with the marker; a continuing game keeps its roster and takes the reply as its scene |
| Play.CorrectedAgreesOnState | bot.py:773-804 | as written and corrected leave the same registries; only the exception differs |
| Play.TurnLogsScene | bot.py:696-701 | a continuing turn with text makes the last event describe the new scene; an empty message logs nothing |
| Play.EndGame | bot.py:633-646 | no game does nothing; a missing record raises; otherwise only the active flag and state record go, and roster, history, language and objectives stay |
| Play.EndedGameStopsRouting | bot.py:644-645 | after `end_game` no message is a turn although the roster stays, while the completion teardown removes the roster |

## Left out

- Discord I/O: sends, embeds, colours, `add_reaction`, `fetch_message`, `fetch_user`, direct messages and `discord.Forbidden`. Only the reaction lists, the routing facts and the sent texts of `send_long_message` are modelled.
- `asyncio.sleep` windows and interleaving of coroutines. Each modelled step is atomic. Interleavings are explored only as sequences of these steps, as in `Setup.SessionAndLobbyOverlap`.
- Setup.Promote: merges writes made before the suspensions at bot.py:495-611 (language at 392, state record at 444, objectives at 490) with those made after them (history, active flag and roster at 614-616, the opening event at 697). It hides interleavings inside that stretch. For example, a `!start_game` there is not refused, because the channel is not yet active. An `!end_game` there does nothing, and a turn there is not routed.
- Setup.CloseLobby: the `Cancelled` outcome is one step, although the code sends the cancellation notice at bot.py:177 before the cleanup at bot.py:178. This hides a `!start_game` during that send. It opens a fresh lobby, and the cleanup at bot.py:178 then deletes it.
- Setup.SessionWith: the roster read at bot.py:350 and the cleanup at bot.py:620 are one step, although the code suspends in between at the language vote (bot.py:364-390), at bot.py:495-611 and inside bot.py:619. This hides a `!start_game` during the language vote. It is accepted, because the channel is not active yet, and it replaces `joined_players[ch]` with `[]`. The session keeps the list it read at bot.py:350, and bot.py:620 then deletes the new lobby.
- Play.EndGame: the activity test at bot.py:637 and the deletions at bot.py:644-645 are one step, although the code suspends at bot.py:642 in between. This hides two `!end_game` commands that both pass the test. The second one's `del` at bot.py:644 then raises `KeyError`.
- Play.ProcessAction: the completing branch is one step, although the code suspends at bot.py:822, inside `handle_game_completion`, and again at bot.py:797 before the second teardown. It hides an `!end_game` whose deletions (bot.py:644-645) land during the send at 822. They remove the active flag and state record first, so the `KeyError` is then raised by the `del` at bot.py:825, not by the one at 800.
- List aliasing. `players` (bot.py:350) is the very list object kept in `joined_players`, and bot.py:616 stores that list as `game_players[ch]`. A 👍 added before the cleanup at bot.py:620 therefore also lands in the running game's roster, and it stays there after the cleanup. The model copies the roster at bot.py:350, so in `Setup.SessionAndLobbyOverlap` the late joiner stays outside the game.
- The completion service (`client.chat.completions.create`) and the prompts sent to it. Its answer is the `Completion` input.
- JSON persistence (`load_data`/`save_data`, bot.py:39-61) and the `characters` table, which is never written.
- Setup.InitialState: `json.loads` plus `dict.update` (bot.py:489-490) can write any key. Only `main_objective` and `key_requirements` are modelled, as strings. The bilingual reply shape, which nests `en`/`zh` objects, is abstracted to those fields.
- Prompt texts, genre descriptions, the how-to-play guide, the `!scene` and `!story` commands, and the final embeds of completion and `end_game`. These are presentation only.
- Chunking: the embed colour, and the `color or discord.Color.blue()` default.
- Text.IsSpace: Dafny `char`s are Unicode scalar values, so the lone surrogate code points a Python `str` can hold cannot be represented. Unicode data beyond the listed whitespace code points is not modelled.
- Votes.Tally: Discord's reaction list is taken as given. Nothing ensures one reaction per emoji, so the last matching reaction decides, as the loop does.

## Findings

| source | as written | input that shows it | evidently intended | confidence | as-written member | corrected member |
|---|---|---|---|---|---|---|
| bot.py:384-388 | The default branch tests `if not lang_votes`. The bot adds all three language reactions itself at bot.py:367-368, so every option always has an entry (count less one, 0 when only the bot reacted). While those reactions stand, the dictionary is not empty, and `max` picks the first tied item, English. | A language vote nobody joins: reactions `🇺🇸`, `🇹🇼`, `🌐` with count 1 each | Default to bilingual when no player voted, as the branch's message says | high (not executed) | Votes.LanguageVote, Votes.BotReactionsOnlyGiveEnglish, Setup.StartGameSession | Votes.LanguageVoteCorrected, Votes.BotReactionsOnlyGiveBilingual, Setup.StartGameSessionCorrected, Setup.BotOnlyVoteSessionLanguage |
| bot.py:773-804 | `process_action` calls `handle_game_completion`, which deletes the channel's `active_games`, `game_states` and `game_players` entries. It then deletes them again at bot.py:800-802, and the first repeated `del` raises `KeyError`. | A routed turn in a well-formed session whose reply starts with `[GAME_COMPLETE]` | Tear the session down once, then send the closing embed | high (not executed) | Play.ProcessAction, Play.CompletionAlwaysRaises | Play.ProcessActionCorrected, Play.CorrectedTurnEndsIffMarker |

=== FILE: chunking.dfy ===
/**
 `send_long_message` (bot.py:302-346): text of at most `MaxLength` characters
 goes out as one unlabelled message; longer text is cut into parts, each part
 labelled "Part i/n".

 The cutting loop (bot.py:321-334) is modelled twice: `SplitLoop` is the
 reference, a recursive function that also records the whitespace each
 `lstrip()` throws away, and `SplitParts` is the loop itself.
 */
module Chunking {
  import opened Common
  import opened Text

  /** The safety margin the bot uses below the embed description limit. */
  const MaxLength: nat := 2000

  /** One turn of the loop: the part it keeps and the whitespace `lstrip()` then drops. */
  datatype Cut = Cut(part: string, stripped: string)

  /** The text the cuts were taken from, with the dropped whitespace put back. */
  function Joined(cuts: seq<Cut>): string {
    if cuts == [] then [] else cuts[0].part + cuts[0].stripped + Joined(cuts[1..])
  }

  /** The `parts` list the loop builds. */
  function Parts(cuts: seq<Cut>): (parts: seq<string>)
    ensures |parts| == |cuts|
    ensures forall i :: 0 <= i < |cuts| ==> parts[i] == cuts[i].part
  {
    seq(|cuts|, i requires 0 <= i < |cuts| => cuts[i].part)
  }

  /** `p` is where the loop must cut an over-long `content`: just before the last
      newline among its first `MaxLength` characters, or at `MaxLength` when
      there is none. */
  predicate IsSplitPoint(content: string, p: nat) {
    && p <= MaxLength < |content|
    && (p < MaxLength ==> content[p] == '\n')
    && (forall j :: p < j < MaxLength ==> content[j] != '\n')
    && (p == MaxLength ==> forall j :: 0 <= j < MaxLength ==> content[j] != '\n')
  }

  /** `c` is what one turn of the loop takes off the front of `rest`: all of it
      when it fits; otherwise the text before the split point, followed by all
      the whitespace after it and nothing more. */
  predicate CutFits(rest: string, c: Cut) {
    if |rest| <= MaxLength then
      rest != [] && c == Cut(rest, [])
    else
      var k := |c.part| + |c.stripped|;
      && IsSplitPoint(rest, |c.part|)
      && k <= |rest|
      && rest[..k] == c.part + c.stripped
      && AllSpace(c.stripped)
      && (k == |rest| || !IsSpace(rest[k]))
  }

  /** `cuts` is a run of the loop on `content`, turn by turn, until nothing is left. */
  predicate Fits(content: string, cuts: seq<Cut>)
    decreases |cuts|
  {
    if cuts == [] then content == []
    else
      var k := |cuts[0].part| + |cuts[0].stripped|;
      && CutFits(content, cuts[0])
      && k <= |content|
      && Fits(content[k..], cuts[1..])
  }

  /** The split point of bot.py:329-331. */
  function SplitPoint(content: string): (p: nat)
    requires |content| > MaxLength
    ensures IsSplitPoint(content, p)
  {
    var nl := RFind(content[..MaxLength], '\n');
    if nl == -1 then MaxLength else nl
  }

  /** One turn of the loop on an over-long `content`: the part before the split
      point and the whitespace `lstrip()` removes after it. The turn always
      consumes something: a split at 0 happens only in front of a newline,
      which `lstrip()` removes. */
  function FirstCut(content: string): (c: Cut)
    requires |content| > MaxLength
    ensures |c.part| <= MaxLength
    ensures AllSpace(c.stripped)
    ensures 0 < |c.part| + |c.stripped| <= |content|
    ensures content[..|c.part| + |c.stripped|] == c.part + c.stripped
  {
    var p := SplitPoint(content);
    var rest := content[p..];
    var ws := LeadingSpace(rest);
    assert p == 0 ==> IsSpace(rest[0]);
    assert content[..p + ws] == content[..p] + rest[..ws];
    Cut(content[..p], rest[..ws])
  }

  /** The turn takes off what bot.py:329-334 prescribes. */
  lemma FirstCutFits(content: string)
    requires |content| > MaxLength
    ensures CutFits(content, FirstCut(content))
  {
    var p := SplitPoint(content);
    var rest := content[p..];
    var ws := LeadingSpace(rest);
    assert p + ws == |rest[..ws]| + p;
    if p + ws < |content| {
      assert content[p + ws] == rest[ws];
    }
  }

  /** The loop of bot.py:322-334, recording the stripped whitespace of every turn. */
  function SplitLoop(content: string): (cuts: seq<Cut>)
    ensures forall i :: 0 <= i < |cuts| ==> |cuts[i].part| <= MaxLength
    ensures forall i :: 0 <= i < |cuts| ==> AllSpace(cuts[i].stripped)
    ensures Joined(cuts) == content
    decreases |content|
  {
    if content == [] then []
    else if |content| <= MaxLength then [Cut(content, [])]
    else
      var c := FirstCut(content);
      var k := |c.part| + |c.stripped|;
      var tail := SplitLoop(content[k..]);
      JoinedCons(c, tail);
      assert content == content[..k] + content[k..];
      [c] + tail
  }

  lemma JoinedCons(c: Cut, tail: seq<Cut>)
    ensures Joined([c] + tail) == c.part + c.stripped + Joined(tail)
  {
    assert ([c] + tail)[1..] == tail;
  }

  /** Every turn of the loop cuts where bot.py:329-334 says, and the whitespace
      recorded is exactly what `lstrip()` removes. */
  lemma {:induction false} SplitLoopFits(content: string)
    ensures Fits(content, SplitLoop(content))
    decreases |content|
  {
    var cuts := SplitLoop(content);
    if content != [] && |content| > MaxLength {
      var c := FirstCut(content);
      var k := |c.part| + |c.stripped|;
      assert cuts == [c] + SplitLoop(content[k..]);
      assert cuts[1..] == SplitLoop(content[k..]);
      SplitLoopFits(content[k..]);
      FirstCutFits(content);
    } else if content != [] {
      assert cuts == [Cut(content, [])];
      assert content[|content|..] == [];
    }
  }

  /** Only one split point satisfies `IsSplitPoint`. */
  lemma SplitPointUnique(content: string, p: nat, q: nat)
    requires IsSplitPoint(content, p) && IsSplitPoint(content, q)
    ensures p == q
  {
  }

  /** The characters a fitting cut records as stripped are whitespace in `rest`. */
  lemma StrippedIsSpaceInRest(rest: string, c: Cut)
    requires |rest| > MaxLength && CutFits(rest, c)
    ensures forall j :: |c.part| <= j < |c.part| + |c.stripped| ==> IsSpace(rest[j])
  {
    var k := |c.part| + |c.stripped|;
    forall j | |c.part| <= j < k
      ensures IsSpace(rest[j])
    {
      assert rest[j] == rest[..k][j] == c.stripped[j - |c.part|];
    }
  }

  /** Only one cut satisfies `CutFits`. */
  lemma CutFitsUnique(rest: string, c: Cut, d: Cut)
    requires CutFits(rest, c) && CutFits(rest, d)
    ensures c == d
  {
    if |rest| > MaxLength {
      SplitPointUnique(rest, |c.part|, |d.part|);
      var p := |c.part|;
      StrippedIsSpaceInRest(rest, c);
      StrippedIsSpaceInRest(rest, d);
      assert |c.stripped| == |d.stripped|;
      var k := p + |c.stripped|;
      assert c.part + c.stripped == d.part + d.stripped;
      assert c.part == (c.part + c.stripped)[..p];
      assert d.part == (d.part + d.stripped)[..p];
      assert c.stripped == (c.part + c.stripped)[p..];
      assert d.stripped == (d.part + d.stripped)[p..];
    }
  }

  /** The loop's first turn fits the rule, and the rest of its run is the run
      on what that turn leaves. */
  lemma SplitLoopStep(content: string)
    requires content != []
    ensures var loop := SplitLoop(content);
            && loop != [] && CutFits(content, loop[0])
            && |loop[0].part| + |loop[0].stripped| <= |content|
            && loop[1..] == SplitLoop(content[|loop[0].part| + |loop[0].stripped|..])
  {
    var loop := SplitLoop(content);
    if |content| > MaxLength {
      var c := FirstCut(content);
      var tail := SplitLoop(content[|c.part| + |c.stripped|..]);
      assert loop == [c] + tail;
      FirstCutFits(content);
      assert loop[1..] == tail;
    } else {
      assert loop == [Cut(content, [])];
      assert content[|content|..] == [];
    }
  }

  /** `Fits` pins the run down completely: `SplitLoop` is the only run of the
      loop on `content`. */
  lemma {:induction false} FitsOnlySplitLoop(content: string, cuts: seq<Cut>)
    requires Fits(content, cuts)
    ensures cuts == SplitLoop(content)
    decreases |cuts|
  {
    if cuts != [] {
      var k := |cuts[0].part| + |cuts[0].stripped|;
      FitsHead(content, cuts);
      SplitLoopStep(content);
      var loop := SplitLoop(content);
      CutFitsUnique(content, cuts[0], loop[0]);
      FitsOnlySplitLoop(content[k..], cuts[1..]);
      SameHeadSameTail(cuts, loop);
    }
  }

  lemma SameHeadSameTail<T>(a: seq<T>, b: seq<T>)
    requires a != [] && b != [] && a[0] == b[0] && a[1..] == b[1..]
    ensures a == b
  {
    assert a == [a[0]] + a[1..];
    assert b == [b[0]] + b[1..];
  }

  lemma FitsHead(content: string, cuts: seq<Cut>)
    requires Fits(content, cuts) && cuts != []
    ensures content != []
    ensures CutFits(content, cuts[0])
    ensures |cuts[0].part| + |cuts[0].stripped| <= |content|
    ensures Fits(content[|cuts[0].part| + |cuts[0].stripped|..], cuts[1..])
  {
  }

  /** The edge case of bot.py:329-333: when the only newline among the first
      `MaxLength` characters is the very first one, the first part is empty. */
  lemma LeadingNewlineGivesEmptyPart(content: string)
    requires |content| > MaxLength
    requires content[0] == '\n'
    requires forall j :: 0 < j < MaxLength ==> content[j] != '\n'
    ensures |SplitLoop(content)| >= 1
    ensures SplitLoop(content)[0].part == []
  {
    assert SplitPoint(content) == 0;
  }

  /** One turn of bot.py:329-334 on an over-long `content`: it keeps `FirstCut`'s
      part and continues with what follows the stripped whitespace. */
  method LoopTurn(content: string) returns (part: string, next: string)
    requires |content| > MaxLength
    ensures SplitLoop(content) == [Cut(part, FirstCut(content).stripped)] + SplitLoop(next)
    ensures |next| < |content|
  {
    var splitPoint := RFind(content[..MaxLength], '\n');
    if splitPoint == -1 {
      splitPoint := MaxLength;
    }
    assert splitPoint == SplitPoint(content);
    part := content[..splitPoint];
    var rest := content[splitPoint..];
    next := LStrip(rest);
    assert next == content[splitPoint + LeadingSpace(rest)..];
  }

  lemma ConsStep<T>(done: seq<T>, c: T, rest: seq<T>, tail: seq<T>, whole: seq<T>)
    requires done + rest == whole && rest == [c] + tail
    ensures (done + [c]) + tail == whole
  {
    assert (done + [c]) + tail == done + ([c] + tail);
  }

  lemma PartsSnoc(done: seq<Cut>, c: Cut)
    ensures Parts(done + [c]) == Parts(done) + [c.part]
  {
  }

  /** The loop of bot.py:321-334 as written. */
  method SplitParts(text: string) returns (parts: seq<string>)
    ensures parts == Parts(SplitLoop(text))
    ensures forall i :: 0 <= i < |parts| ==> |parts[i]| <= MaxLength
  {
    parts := [];
    var content := text;
    ghost var done: seq<Cut> := [];
    while content != []
      invariant done + SplitLoop(content) == SplitLoop(text)
      invariant parts == Parts(done)
      decreases |content|
    {
      if |content| <= MaxLength {
        assert SplitLoop(content) == [Cut(content, [])];
        ConsStep(done, Cut(content, []), SplitLoop(content), [], SplitLoop(text));
        PartsSnoc(done, Cut(content, []));
        parts := parts + [content];
        done := done + [Cut(content, [])];
        break;
      }
      var part, next := LoopTurn(content);
      ghost var c := Cut(part, FirstCut(content).stripped);
      ConsStep(done, c, SplitLoop(content), SplitLoop(next), SplitLoop(text));
      PartsSnoc(done, c);
      parts := parts + [part];
      done := done + [c];
      content := next;
    }
  }

  /** What `send_long_message` hands to the gateway: an embed (title, description)
      or a plain text message. Colours are presentation and are left out. */
  datatype Outbound = Embed(title: Option<string>, description: string) | Plain(text: string)

  /** Python truthiness of the `title` argument: `None` and `""` both count as no title. */
  predicate HasTitle(title: Option<string>) {
    title.Some? && title.value != []
  }

  /** "Part i/n" as bot.py:340 and bot.py:346 spell it. */
  function PartLabel(i: nat, n: nat): (s: string)
    ensures |s| > 5 && s[..5] == "Part "
  {
    "Part " + Decimal(i) + "/" + Decimal(n)
  }

  /** The label reads back: the digits between "Part " and the last '/' are
      the part number, those after it the part count. */
  lemma PartLabelReadsBack(i: nat, n: nat)
    ensures var s := PartLabel(i, n);
            var j := RFind(s, '/');
            && 5 < j && AllDigits(s[5..j]) && AllDigits(s[j + 1..])
            && ParseDecimal(s[5..j]) == i && ParseDecimal(s[j + 1..]) == n
  {
    LabelLayout("Part ", Decimal(i), Decimal(n));
    ParseDecimalInvertsDecimal(i);
    ParseDecimalInvertsDecimal(n);
  }

  /** Where the pieces of `p + a + "/" + b` sit when `b` holds no '/'. */
  lemma LabelLayout(p: string, a: string, b: string)
    requires AllDigits(b)
    ensures var s := p + a + "/" + b;
            && RFind(s, '/') == |p| + |a|
            && s[..|p|] == p && s[|p|..|p| + |a|] == a && s[|p| + |a| + 1..] == b
  {
    var s := p + a + "/" + b;
    var j := |p| + |a|;
    assert s[j] == '/';
    assert s[j + 1..] == b;
    assert forall k :: j < k < |s| ==> s[k] == b[k - j - 1];
    LastAt(s, '/', j);
    assert s[..|p|] == p;
    assert s[|p|..j] == a;
  }

  /** `rfind` finds an occurrence with no later one. */
  lemma LastAt(s: string, c: char, j: nat)
    requires j < |s| && s[j] == c
    requires forall k :: j < k < |s| ==> s[k] != c
    ensures RFind(s, c) == j
  {
    assert c in s;
  }

  /** `text` is a code block: an opening fence, `tag`, a colon and a newline,
      `part`, then a closing fence. Each piece reads back from its place. */
  predicate CodeBlock(text: string, tag: string, part: string) {
    && 3 + |tag| + 2 + 3 <= |text|
    && text[..3] == "```" && text[3..3 + |tag|] == tag
    && text[3 + |tag|..3 + |tag| + 2] == ":\n"
    && text[3 + |tag| + 2..|text| - 3] == part
    && text[|text| - 3..] == "```"
  }

  /** One labelled message of a long text. An embed carries the part as its
      description and ends its title with the label; a plain message puts the
      label and then the part inside a code block. */
  function Labelled(title: Option<string>, isEmbed: bool, i: nat, n: nat, part: string): (m: Outbound)
    ensures m.Embed? <==> isEmbed
    ensures m.Embed? ==> m.description == part && m.title.Some?
    ensures m.Embed? && !HasTitle(title) ==> m.title.value == PartLabel(i, n)
    ensures m.Embed? && HasTitle(title) ==>
              StartsWith(m.title.value, title.value)
              && m.title.value[|title.value|..] == " (" + PartLabel(i, n) + ")"
    ensures m.Plain? ==> CodeBlock(m.text, PartLabel(i, n), part)
  {
    var tag := PartLabel(i, n);
    if isEmbed then
      if HasTitle(title) then
        TitledLayout(title.value, tag);
        Embed(Some(title.value + " (" + tag + ")"), part)
      else Embed(Some(tag), part)
    else
      WrapLayout(tag, part);
      Plain("```" + tag + ":\n" + part + "```")
  }

  lemma TitledLayout(t: string, tag: string)
    ensures StartsWith(t + " (" + tag + ")", t)
    ensures (t + " (" + tag + ")")[|t|..] == " (" + tag + ")"
  {
    assert t + " (" + tag + ")" == t + (" (" + tag + ")");
  }

  lemma WrapLayout(tag: string, part: string)
    ensures CodeBlock("```" + tag + ":\n" + part + "```", tag, part)
  {
    var t := "```" + tag + ":\n" + part + "```";
    assert t == ("```" + tag) + (":\n" + part) + "```";
    assert t[..3] == "```";
    assert t[3..3 + |tag|] == tag;
    assert t[3 + |tag|..3 + |tag| + 2] == ":\n";
    assert t[3 + |tag| + 2..|t| - 3] == part;
    assert t[|t| - 3..] == "```";
  }

  /** bot.py:302-346. Short text is one unlabelled message carrying the text
      unchanged; long text is one message per part, in order, numbered 1..n. */
  function SendLongMessage(content: string, title: Option<string>, isEmbed: bool): (out: seq<Outbound>)
    ensures |content| <= MaxLength ==>
              out == [if isEmbed then Embed(title, content) else Plain(content)]
    ensures |content| > MaxLength ==>
              && |out| == |SplitLoop(content)| >= 1
              && forall i :: 0 <= i < |out| ==>
                   out[i] == Labelled(title, isEmbed, i + 1, |out|, SplitLoop(content)[i].part)
  {
    if |content| <= MaxLength then
      [if isEmbed then Embed(title, content) else Plain(content)]
    else
      var cuts := SplitLoop(content);
      var n := |cuts|;
      seq(n, i requires 0 <= i < n => Labelled(title, isEmbed, i + 1, n, cuts[i].part))
  }

  /** Each message of a long text carries a part of at most `MaxLength`
      characters, and putting the parts back together with the whitespace the
      loop dropped between them gives the text exactly. */
  lemma LongMessageReassembles(content: string, title: Option<string>)
    requires |content| > MaxLength
    ensures var out := SendLongMessage(content, title, true);
            var cuts := SplitLoop(content);
            && (forall i :: 0 <= i < |out| ==> out[i].Embed? && out[i].description == cuts[i].part)
            && (forall i :: 0 <= i < |out| ==> |out[i].description| <= MaxLength)
            && Joined(cuts) == content
  {
  }

  /** No two messages of a long text get the same label: the part number reads back. */
  lemma PartLabelsDistinct(i: nat, j: nat, n: nat)
    requires i != j
    ensures PartLabel(i, n) != PartLabel(j, n)
  {
    PartLabelReadsBack(i, n);
    PartLabelReadsBack(j, n);
  }
}

=== FILE: common.dfy ===
/** Small shared datatypes. */
module Common {

  /** A value that may be absent: Python's `None` or an absent optional argument. */
  datatype Option<+T> = None | Some(value: T)

  /** An exception the modelled code raises and does not catch. Within the
      modelled steps that is only `KeyError`: a dictionary subscript or `del`
      on a missing key. */
  datatype Fault = KeyError(table: string, key: string)

  /** A computation that either returns a value or raises. */
  datatype Result<+T> = Ok(value: T) | Err(fault: Fault)
}

=== FILE: play.dfy ===
/**
 A running game: which messages count as player actions (`on_message`,
 bot.py:725-743), one turn of play (`process_action`, bot.py:744-814),
 the story log (`update_story_message`, bot.py:690-722), the completion
 teardown (`handle_game_completion`, bot.py:816-830) and `end_game`
 (bot.py:633-646). The completion service's answers are inputs.
 */
module Play {
  import opened Common
  import opened Text
  import opened Votes
  import opened Wording
  import opened Registry

  /** The marker a reply starts with when the game's objective is met. */
  const Sentinel: string := "[GAME_COMPLETE]"

  /** What `on_message` does with a message. */
  datatype Route = Ignored | Act | Raised(fault: Fault)

  /** `[str(pid) for pid in game_data.game_players[channel_id]]`. */
  function RenderIds(ps: seq<UserId>): (ss: seq<string>)
    ensures |ss| == |ps| && forall i :: 0 <= i < |ps| ==> ss[i] == Decimal(ps[i])
  {
    seq(|ps|, i requires 0 <= i < |ps| => Decimal(ps[i]))
  }

  /** Comparing rendered ids is comparing ids. */
  lemma RenderedIdMember(u: UserId, ps: seq<UserId>)
    ensures Decimal(u) in RenderIds(ps) <==> u in ps
  {
    var ss := RenderIds(ps);
    if Decimal(u) in ss {
      var i :| 0 <= i < |ss| && ss[i] == Decimal(u);
      DecimalInjective(u, ps[i]);
    }
    if u in ps {
      var i :| 0 <= i < |ps| && ps[i] == u;
      assert ss[i] == Decimal(u);
    }
  }

  /** The routing gate of `on_message` (bot.py:728-740): a message is a player
      action when its author is human, the channel has a running game, the
      author's rendered id is among the rendered roster, and the text is not
      a command. */
  function RouteMessage(data: GameData, ch: ChannelId, author: UserId, authorIsBot: bool, content: string): (r: Route)
    ensures r.Act? <==> !authorIsBot && ch in data.activeGames && ch in data.gamePlayers
                        && author in data.gamePlayers[ch] && !StartsWith(content, "!")
    ensures r.Raised? <==> !authorIsBot && ch in data.activeGames && ch !in data.gamePlayers
    ensures SessionsWF(data) ==> !r.Raised?
  {
    if authorIsBot || ch !in data.activeGames then Ignored
    else if ch !in data.gamePlayers then Raised(KeyError("game_players", ch))
    else
      RenderedIdMember(author, data.gamePlayers[ch]);
      if Decimal(author) in RenderIds(data.gamePlayers[ch]) && !StartsWith(content, "!") then Act
      else Ignored
  }

  /** `game_data.game_languages.get(channel_id, 'both')`. */
  function SessionLanguage(data: GameData, ch: ChannelId): (l: Lang)
    ensures ch !in data.gameLanguages ==> l == Both
    ensures ch in data.gameLanguages ==> l == data.gameLanguages[ch]
  {
    if ch in data.gameLanguages then data.gameLanguages[ch] else Both
  }

  /** The reply `process_action` works with (bot.py:769): the service's text,
      or the apology in the session's language. */
  function ActionReply(data: GameData, ch: ChannelId, completion: Completion): (reply: string)
    ensures completion.Replied? ==> reply == completion.text
    ensures completion.Failed? ==> Ok(reply) == ErrorFallback(LangCode(SessionLanguage(data, ch)))
  {
    AiResponse(completion, LangCode(SessionLanguage(data, ch))).value
  }

  /** The channel's history as `update_story_message` finds it, created empty
      when missing (bot.py:692-693). */
  function PriorHistory(data: GameData, ch: ChannelId): (h: seq<StoryEvent>)
    ensures ch in data.storyHistory ==> h == data.storyHistory[ch]
    ensures ch !in data.storyHistory ==> h == []
  {
    if ch in data.storyHistory then data.storyHistory[ch] else []
  }

  /** The history write of `update_story_message` (bot.py:692-701): one event
      when both the action and the actor are non-empty strings, else none. */
  function UpdateStory(data: GameData, ch: ChannelId, content: string, action: string, actor: string): (r: GameData)
    ensures ch in r.storyHistory
    ensures action != "" && actor != "" ==>
              r.storyHistory[ch] == PriorHistory(data, ch) + [StoryEvent(action, actor, content)]
    ensures action == "" || actor == "" ==> r.storyHistory[ch] == PriorHistory(data, ch)
    ensures r == data.(storyHistory := r.storyHistory)
    ensures r.storyHistory - {ch} == data.storyHistory - {ch}
  {
    var h := PriorHistory(data, ch);
    var h' := if action != "" && actor != "" then h + [StoryEvent(action, actor, content)] else h;
    data.(storyHistory := data.storyHistory[ch := h'])
  }

  /** `history[-5:]`: the last five events, or all of them when there are fewer. */
  function RecentEvents(history: seq<StoryEvent>): (r: seq<StoryEvent>)
    ensures |r| == if |history| < 5 then |history| else 5
    ensures history == history[..|history| - |r|] + r
  {
    if |history| <= 5 then history else history[|history| - 5..]
  }

  /** The two lines the loop of bot.py:708-710 writes for one event. */
  function EventLine(e: StoryEvent): (s: string)
    ensures s != []
  {
    "\n\U{1F464} **" + e.actor + "**: " + e.action + "\n" + "\U{27A1}\U{FE0F} " + e.result + "\n"
  }

  /** The lines of bot.py:708-710 for a list of events: one block per event. */
  function EventLines(events: seq<StoryEvent>): (s: string)
    ensures s == [] <==> events == []
    ensures events != [] ==> StartsWith(s, EventLine(events[0]))
    decreases |events|
  {
    if events == [] then []
    else EventLine(events[0]) + EventLines(events[1..])
  }

  /** The blocks follow the events in order: listing two runs of events one
      after the other gives their blocks one after the other. */
  lemma {:induction false} EventLinesAppend(a: seq<StoryEvent>, b: seq<StoryEvent>)
    ensures EventLines(a + b) == EventLines(a) + EventLines(b)
    decreases |a|
  {
    if a == [] {
      assert a + b == b;
    } else {
      assert (a + b)[1..] == a[1..] + b;
      EventLinesAppend(a[1..], b);
    }
  }

  const SummaryHead: string := "**\U{1F3AD} Current Story | 當前故事**\n\n**Recent Events | 最近事件:**\n"
  const SceneHead: string := "\n**Current Scene | 當前場景:**\n"

  /** The text `update_story_message` posts (bot.py:703-713): a header, the
      recent events, then the current scene, which is always last. */
  function StorySummary(history: seq<StoryEvent>, scene: string): (s: string)
    ensures StartsWith(s, SummaryHead)
    ensures |s| >= |scene| && s[|s| - |scene|..] == scene
  {
    var s := SummaryHead + EventLines(RecentEvents(history)) + SceneHead + scene;
    assert s[..|SummaryHead|] == SummaryHead;
    s
  }

  /** The result of `handle_game_completion`: the text shown (the reply with
      every marker removed, bot.py:819) and the teardown of bot.py:825-829. */
  datatype Completed = Completed(display: string, effect: Effect)

  function HandleGameCompletion(data: GameData, ch: ChannelId, finalScene: string): (r: Completed)
    ensures |r.display| <= |finalScene|
    ensures r.effect == DropSession(data, ch)
  {
    Completed(RemoveAll(finalScene, Sentinel), DropSession(data, ch))
  }

  /** The display drops a leading marker and passes text without one through. */
  lemma CompletionDisplayStrips(rest: string)
    ensures HandleGameCompletion(EmptyData, "", Sentinel + rest).display == RemoveAll(rest, Sentinel)
    ensures !Occurs(rest, Sentinel) ==> HandleGameCompletion(EmptyData, "", Sentinel + rest).display == rest
  {
    RemoveAllLeading(Sentinel, rest);
    if !Occurs(rest, Sentinel) {
      RemoveAllAbsent(rest, Sentinel);
    }
  }

  /** `str.replace` makes one pass, so removing an inner marker can join two
      fragments into a marker that is shown. */
  lemma SinglePassCanReform()
    ensures RemoveAll("[GAME_" + Sentinel + "COMPLETE]", Sentinel) == Sentinel
  {
    NoMatchInsidePrefix("[GAME_", "COMPLETE]");
    RemoveAllAroundOne("[GAME_", Sentinel, "COMPLETE]");
  }

  lemma NoMatchInsidePrefix(p: string, rest: string)
    requires p == "[GAME_"
    ensures forall i :: 0 <= i < |p| ==> !StartsWith(p[i..] + (Sentinel + rest), Sentinel)
  {
    forall i | 0 <= i < |p|
      ensures !StartsWith(p[i..] + (Sentinel + rest), Sentinel)
    {
      var u := p[i..] + (Sentinel + rest);
      if i == 0 {
        assert u[6] == '[' && Sentinel[6] == 'C';
      } else {
        assert u[0] != '[';
      }
    }
  }

  /** The non-completing branch of a turn (bot.py:806-808): the reply becomes
      the scene and the history records the action. */
  function PlayOn(data: GameData, ch: ChannelId, actionText: string, actorName: string, reply: string): (r: GameData)
    requires ch in data.gameStates
    ensures ch in r.gameStates && r.gameStates[ch] == data.gameStates[ch].(currentScene := reply)
    ensures r.activeGames == data.activeGames && r.gamePlayers == data.gamePlayers
    ensures r.gameObjectives == data.gameObjectives && r.gameLanguages == data.gameLanguages
    ensures ch in r.storyHistory && r.storyHistory[ch] == PriorHistory(data, ch)
              + (if actionText != "" && actorName != "" then [StoryEvent(actionText, actorName, reply)] else [])
    ensures OthersUnchanged(data, r, ch)
    ensures SessionsWF(data) ==> SessionsWF(r)
  {
    var state := data.gameStates[ch];
    var d := data.(gameStates := data.gameStates[ch := state.(currentScene := reply)]);
    UpdateStory(d, ch, reply, actionText, actorName)
  }

  /** `process_action` as written (bot.py:744-814). The state lookup at
      bot.py:747 raises for a channel without a record. A reply starting with
      the marker runs `handle_game_completion`, which tears the session down,
      and then tears it down a second time at bot.py:800-804. */
  function ProcessAction(data: GameData, ch: ChannelId, actionText: string, actorName: string,
                         completion: Completion): (e: Effect)
    ensures ch !in data.gameStates ==> e == Effect(data, Some(KeyError("game_states", ch)))
    ensures ch in data.gameStates && !StartsWith(ActionReply(data, ch, completion), Sentinel) ==>
              e == Effect(PlayOn(data, ch, actionText, actorName, ActionReply(data, ch, completion)), None)
    ensures ch in data.gameStates && StartsWith(ActionReply(data, ch, completion), Sentinel) ==> e.fault.Some?
    ensures OthersUnchanged(data, e.data, ch)
    ensures SessionsWF(data) ==> SessionsWF(e.data)
  {
    if ch !in data.gameStates then Effect(data, Some(KeyError("game_states", ch)))
    else
      var reply := ActionReply(data, ch, completion);
      if StartsWith(reply, Sentinel) then
        var first := HandleGameCompletion(data, ch, reply).effect;
        if first.fault.Some? then first else DropSession(first.data, ch)
      else Effect(PlayOn(data, ch, actionText, actorName, reply), None)
  }

  /** The completing branch of a routed turn always raises: the second
      teardown finds no `active_games` entry. */
  lemma CompletionAlwaysRaises(data: GameData, ch: ChannelId, actionText: string, actorName: string, completion: Completion)
    requires SessionsWF(data) && ch in data.activeGames
    requires StartsWith(ActionReply(data, ch, completion), Sentinel)
    ensures ProcessAction(data, ch, actionText, actorName, completion).fault == Some(KeyError("active_games", ch))
  {
    DropTwiceFaults(data, ch);
  }

  /** `process_action` with the completing branch tearing the session down
      once, in `handle_game_completion`. */
  function ProcessActionCorrected(data: GameData, ch: ChannelId, actionText: string, actorName: string,
                                  completion: Completion): (e: Effect)
    ensures ch !in data.gameStates ==> e == Effect(data, Some(KeyError("game_states", ch)))
    ensures ch in data.gameStates && !StartsWith(ActionReply(data, ch, completion), Sentinel) ==>
              e == Effect(PlayOn(data, ch, actionText, actorName, ActionReply(data, ch, completion)), None)
    ensures ch in data.gameStates && StartsWith(ActionReply(data, ch, completion), Sentinel) ==>
              e == DropSession(data, ch)
    ensures OthersUnchanged(data, e.data, ch)
    ensures SessionsWF(data) ==> SessionsWF(e.data)
  {
    if ch !in data.gameStates then Effect(data, Some(KeyError("game_states", ch)))
    else
      var reply := ActionReply(data, ch, completion);
      if StartsWith(reply, Sentinel) then HandleGameCompletion(data, ch, reply).effect
      else Effect(PlayOn(data, ch, actionText, actorName, reply), None)
  }

  /** On a routed turn of a well-formed registry, the corrected turn never
      raises, and the game ends exactly when the reply starts with the
      marker. A continuing game keeps its players and records the reply as
      its scene. */
  lemma CorrectedTurnEndsIffMarker(data: GameData, ch: ChannelId, actionText: string, actorName: string,
                                   completion: Completion)
    requires SessionsWF(data) && ch in data.activeGames
    ensures ProcessActionCorrected(data, ch, actionText, actorName, completion).fault.None?
    ensures var e := ProcessActionCorrected(data, ch, actionText, actorName, completion);
            ch !in e.data.activeGames <==> StartsWith(ActionReply(data, ch, completion), Sentinel)
    ensures var e := ProcessActionCorrected(data, ch, actionText, actorName, completion);
            ch !in e.data.activeGames ==> ch !in e.data.gameStates && ch !in e.data.gamePlayers
    ensures var e := ProcessActionCorrected(data, ch, actionText, actorName, completion);
            ch in e.data.activeGames ==>
              (e.data.gamePlayers[ch] == data.gamePlayers[ch]
               && e.data.gameStates[ch].currentScene == ActionReply(data, ch, completion))
  {
  }

  /** The defect loses no state: as written and corrected leave the
      registries the same; only the exception differs. */
  lemma CorrectedAgreesOnState(data: GameData, ch: ChannelId, actionText: string, actorName: string,
                               completion: Completion)
    requires SessionsWF(data)
    ensures ProcessAction(data, ch, actionText, actorName, completion).data
              == ProcessActionCorrected(data, ch, actionText, actorName, completion).data
  {
  }

  /** The last recorded event describes the current scene. */
  predicate SceneRecorded(data: GameData, ch: ChannelId) {
    && ch in data.gameStates && ch in data.storyHistory && data.storyHistory[ch] != []
    && data.storyHistory[ch][|data.storyHistory[ch]| - 1].result == data.gameStates[ch].currentScene
  }

  /** A continuing turn with a non-empty action keeps the log in step with
      the scene; a turn with an empty message changes the scene without
      logging anything. */
  lemma TurnLogsScene(data: GameData, ch: ChannelId, actionText: string, actorName: string, completion: Completion)
    requires ch in data.gameStates && actorName != ""
    requires !StartsWith(ActionReply(data, ch, completion), Sentinel)
    ensures actionText != "" ==> SceneRecorded(ProcessActionCorrected(data, ch, actionText, actorName, completion).data, ch)
    ensures actionText == "" ==>
              (ProcessActionCorrected(data, ch, actionText, actorName, completion).data.storyHistory[ch]
                 == PriorHistory(data, ch))
  {
  }

  /** `end_game` (bot.py:633-646): nothing happens without a running game;
      otherwise the state record is read for the closing prompt (raising if
      absent) and only the `active_games` and `game_states` entries are
      deleted. */
  function EndGame(data: GameData, ch: ChannelId): (e: Effect)
    ensures ch !in data.activeGames ==> e == Effect(data, None)
    ensures ch in data.activeGames && ch !in data.gameStates ==> e == Effect(data, Some(KeyError("game_states", ch)))
    ensures ch in data.activeGames && ch in data.gameStates ==>
              e.fault.None? && ch !in e.data.activeGames && ch !in e.data.gameStates
    ensures e.data.gamePlayers == data.gamePlayers && e.data.storyHistory == data.storyHistory
    ensures e.data.gameObjectives == data.gameObjectives && e.data.gameLanguages == data.gameLanguages
    ensures OthersUnchanged(data, e.data, ch)
    ensures SessionsWF(data) ==> SessionsWF(e.data)
  {
    if ch !in data.activeGames then Effect(data, None)
    else if ch !in data.gameStates then Effect(data, Some(KeyError("game_states", ch)))
    else Effect(data.(activeGames := data.activeGames - {ch}, gameStates := data.gameStates - {ch}), None)
  }

  /** After `end_game` the channel's messages are no longer actions, although
      its roster, history and language stay behind; completion removes the
      roster too. */
  lemma EndedGameStopsRouting(data: GameData, ch: ChannelId, author: UserId, content: string)
    requires SessionsWF(data) && ch in data.activeGames
    ensures RouteMessage(EndGame(data, ch).data, ch, author, false, content) == Ignored
    ensures ch in EndGame(data, ch).data.gamePlayers
    ensures ch !in DropSession(data, ch).data.gamePlayers
  {
  }
}

=== FILE: registry.dfy ===
/**
 The two process-wide registries the bot keeps, keyed by channel id
 (`str(channel.id)`): `GameData` for running sessions (bot.py:26-37) and
 `GameSetupState` for lobbies being set up (bot.py:84-90), together with the
 deletion chain that tears a session down.
 */
module Registry {
  import opened Common
  import opened Votes

  type ChannelId = string
  type UserId = nat

  /** The per-channel record of `game_states` (bot.py:444-450). */
  datatype GameState = GameState(
    currentScene: string,
    progress: int,
    completedObjectives: seq<string>,
    mainObjective: string,
    keyRequirements: seq<string>)

  /** One entry of `story_history` (bot.py:697-701). */
  datatype StoryEvent = StoryEvent(action: string, actor: string, result: string)

  /** `GameData`. `active_games` only ever maps to `True`, so it is a set.
      `game_objectives` is never written, only looked up and deleted, so only its
      keys matter. */
  datatype GameData = GameData(
    activeGames: set<ChannelId>,
    gameStates: map<ChannelId, GameState>,
    gamePlayers: map<ChannelId, seq<UserId>>,
    gameObjectives: set<ChannelId>,
    storyHistory: map<ChannelId, seq<StoryEvent>>,
    gameLanguages: map<ChannelId, Lang>)

  /** `GameSetupState`. `waiting_for_players` only ever maps to `True`;
      `collecting_preferences` and `player_count` are never written, only
      cleaned up (or not). */
  datatype SetupState = SetupState(
    waitingForPlayers: set<ChannelId>,
    collectingPreferences: set<ChannelId>,
    playerCount: map<ChannelId, int>,
    joinedPlayers: map<ChannelId, seq<UserId>>,
    gameType: map<ChannelId, Genre>)

  const EmptyData := GameData({}, map[], map[], {}, map[], map[])
  const EmptySetup := SetupState({}, {}, map[], map[], map[])

  /** Every active channel has a state record and a roster, so the lookups of
      `on_message` (bot.py:737) and `process_action` (bot.py:747) succeed. */
  predicate SessionsWF(data: GameData) {
    && data.activeGames <= data.gameStates.Keys
    && data.activeGames <= data.gamePlayers.Keys
  }

  /** Every open lobby has a roster, so the append of `on_reaction_add`
      (bot.py:297) finds it. */
  predicate SetupWF(setup: SetupState) {
    setup.waitingForPlayers <= setup.joinedPlayers.Keys
  }

  lemma EmptyIsWF()
    ensures SessionsWF(EmptyData) && SetupWF(EmptySetup)
  {
  }

  /** No two entries of a roster are the same user. */
  predicate Distinct(s: seq<UserId>) {
    forall i, j :: 0 <= i < j < |s| ==> s[i] != s[j]
  }

  /** The state of a computation that may stop part-way: the registries as
      they stand when it returns or raises, and the exception if it raised. */
  datatype Effect = Effect(data: GameData, fault: Option<Fault>)

  /** `data` and `data'` agree on every channel other than `ch`, in every table. */
  predicate OthersUnchanged(data: GameData, data': GameData, ch: ChannelId) {
    && data'.activeGames - {ch} == data.activeGames - {ch}
    && data'.gameStates - {ch} == data.gameStates - {ch}
    && data'.gamePlayers - {ch} == data.gamePlayers - {ch}
    && data'.gameObjectives - {ch} == data.gameObjectives - {ch}
    && data'.storyHistory - {ch} == data.storyHistory - {ch}
    && data'.gameLanguages - {ch} == data.gameLanguages - {ch}
  }

  /** The teardown of bot.py:825-829, also written out at bot.py:800-804: `del`
      of the channel's `active_games`, `game_states` and `game_players` entries
      in that order, then of its `game_objectives` entry if there is one. A
      `del` of a missing key raises `KeyError`, leaving the earlier deletions
      in place. */
  function DropSession(data: GameData, ch: ChannelId): (e: Effect)
    ensures e.fault.None? <==> ch in data.activeGames && ch in data.gameStates && ch in data.gamePlayers
    ensures e.fault.Some? ==> e.fault.value.key == ch
    ensures ch !in data.activeGames ==> e == Effect(data, Some(KeyError("active_games", ch)))
    ensures e.fault.None? ==>
              && ch !in e.data.activeGames && ch !in e.data.gameStates
              && ch !in e.data.gamePlayers && ch !in e.data.gameObjectives
    ensures ch in data.activeGames && ch !in data.gameStates ==>
              e == Effect(data.(activeGames := data.activeGames - {ch}), Some(KeyError("game_states", ch)))
    ensures ch in data.activeGames && ch in data.gameStates && ch !in data.gamePlayers ==>
              e == Effect(data.(activeGames := data.activeGames - {ch}, gameStates := data.gameStates - {ch}),
                          Some(KeyError("game_players", ch)))
    ensures e.data.storyHistory == data.storyHistory && e.data.gameLanguages == data.gameLanguages
    ensures OthersUnchanged(data, e.data, ch)
    ensures SessionsWF(data) ==> SessionsWF(e.data)
  {
    if ch !in data.activeGames then Effect(data, Some(KeyError("active_games", ch)))
    else
      var d1 := data.(activeGames := data.activeGames - {ch});
      if ch !in d1.gameStates then Effect(d1, Some(KeyError("game_states", ch)))
      else
        var d2 := d1.(gameStates := d1.gameStates - {ch});
        if ch !in d2.gamePlayers then Effect(d2, Some(KeyError("game_players", ch)))
        else
          var d3 := d2.(gamePlayers := d2.gamePlayers - {ch});
          Effect(d3.(gameObjectives := d3.gameObjectives - {ch}), None)
  }

  /** Tearing a session down twice always raises: after the first teardown
      the channel has no `active_games` entry for the second `del` to remove. */
  lemma DropTwiceFaults(data: GameData, ch: ChannelId)
    requires DropSession(data, ch).fault.None?
    ensures DropSession(DropSession(data, ch).data, ch).fault == Some(KeyError("active_games", ch))
  {
  }
}

=== FILE: setup.dfy ===
/**
 The lobby and the road to a running game: `start_game` (bot.py:151-287),
 `on_reaction_add` (bot.py:290-299), `cleanup_setup_state` (bot.py:622-631)
 and the writes of `start_game_session` (bot.py:348-620). Most functions are
 one step between two suspension points of the coroutines. Three gather
 stretches on both sides of suspensions into one step:
 - the `Cancelled` outcome of `CloseLobby`, across the send at bot.py:177;
 - `Promote`, across bot.py:495-611;
 - `SessionWith`, across bot.py:364-390, 495-611 and the send inside bot.py:619.
 The Discord messages sent in between are not part of the model.
 */
module Setup {
  import opened Common
  import opened Votes
  import opened Wording
  import opened Registry

  /** The emoji a user reacts with to join a lobby. */
  const JoinEmoji: string := "\U{1F44D}"

  /** `setup` and `setup'` agree on every channel other than `ch`, in every table. */
  predicate SetupOthersUnchanged(setup: SetupState, setup': SetupState, ch: ChannelId) {
    && setup'.waitingForPlayers - {ch} == setup.waitingForPlayers - {ch}
    && setup'.collectingPreferences - {ch} == setup.collectingPreferences - {ch}
    && setup'.playerCount - {ch} == setup.playerCount - {ch}
    && setup'.joinedPlayers - {ch} == setup.joinedPlayers - {ch}
    && setup'.gameType - {ch} == setup.gameType - {ch}
  }

  datatype Opening = Refused | Opened(setup: SetupState)

  /** The first step of `start_game` (bot.py:154-160): refused while the channel
      has a running game, otherwise a lobby with an empty roster. Nothing looks
      at the setup registry, so a lobby already open is replaced. */
  function StartGame(data: GameData, setup: SetupState, ch: ChannelId): (r: Opening)
    ensures r.Refused? <==> ch in data.activeGames
    ensures r.Opened? ==> ch in r.setup.waitingForPlayers && ch in r.setup.joinedPlayers
                          && r.setup.joinedPlayers[ch] == []
    ensures r.Opened? ==> SetupOthersUnchanged(setup, r.setup, ch)
    ensures r.Opened? ==> r.setup.gameType == setup.gameType && r.setup.playerCount == setup.playerCount
                          && r.setup.collectingPreferences == setup.collectingPreferences
    ensures r.Opened? && SetupWF(setup) ==> SetupWF(r.setup)
  {
    if ch in data.activeGames then Refused
    else Opened(setup.(waitingForPlayers := setup.waitingForPlayers + {ch},
                       joinedPlayers := setup.joinedPlayers[ch := []]))
  }

  /** A second `!start_game` while a lobby is filling up empties its roster:
      everyone who had joined is dropped. */
  lemma RestartEmptiesLobby(data: GameData, setup: SetupState, ch: ChannelId, u: UserId)
    requires ch !in data.activeGames && ch in setup.joinedPlayers && u in setup.joinedPlayers[ch]
    ensures u !in StartGame(data, setup, ch).setup.joinedPlayers[ch]
  {
  }

  /** `on_reaction_add` (bot.py:290-299). Only a 👍 from a human in a channel
      with an open lobby counts, and it adds the user at the end of the
      roster unless they are already on it. */
  function OnReactionAdd(setup: SetupState, ch: ChannelId, user: UserId, isBot: bool, emoji: string): (r: SetupState)
    requires SetupWF(setup)
    ensures isBot || ch !in setup.waitingForPlayers || emoji != JoinEmoji ==> r == setup
    ensures SetupWF(r)
    ensures r.waitingForPlayers == setup.waitingForPlayers && r.gameType == setup.gameType
            && r.playerCount == setup.playerCount && r.collectingPreferences == setup.collectingPreferences
    ensures r.joinedPlayers.Keys == setup.joinedPlayers.Keys
    ensures forall c :: c in r.joinedPlayers && c != ch ==> r.joinedPlayers[c] == setup.joinedPlayers[c]
    ensures ch in r.joinedPlayers ==> forall u :: u in r.joinedPlayers[ch] <==>
              u in setup.joinedPlayers[ch]
              || (u == user && !isBot && ch in setup.waitingForPlayers && emoji == JoinEmoji)
    ensures ch in r.joinedPlayers ==>
              |setup.joinedPlayers[ch]| <= |r.joinedPlayers[ch]| <= |setup.joinedPlayers[ch]| + 1
              && r.joinedPlayers[ch][..|setup.joinedPlayers[ch]|] == setup.joinedPlayers[ch]
  {
    if isBot then setup
    else if ch in setup.waitingForPlayers && emoji == JoinEmoji then
      var roster := setup.joinedPlayers[ch];
      if user !in roster then setup.(joinedPlayers := setup.joinedPlayers[ch := roster + [user]])
      else setup
    else setup
  }

  /** A reaction never puts a user on a roster twice. */
  lemma ReactionKeepsRosterDistinct(setup: SetupState, ch: ChannelId, user: UserId, isBot: bool, emoji: string)
    requires SetupWF(setup) && ch in setup.joinedPlayers && Distinct(setup.joinedPlayers[ch])
    ensures Distinct(OnReactionAdd(setup, ch, user, isBot, emoji).joinedPlayers[ch])
  {
  }

  /** A reaction event as the gateway delivers it. */
  datatype ReactionEvent = ReactionEvent(ch: ChannelId, user: UserId, isBot: bool, emoji: string)

  /** Delivering reaction events one after another. */
  function Replay(setup: SetupState, events: seq<ReactionEvent>): (r: SetupState)
    requires SetupWF(setup)
    ensures SetupWF(r)
    ensures r.waitingForPlayers == setup.waitingForPlayers
    ensures r.joinedPlayers.Keys == setup.joinedPlayers.Keys
    decreases |events|
  {
    if events == [] then setup
    else
      var e := events[|events| - 1];
      OnReactionAdd(Replay(setup, events[..|events| - 1]), e.ch, e.user, e.isBot, e.emoji)
  }

  /** The users behind the events that count as joining channel `ch`, in
      delivery order, repeats included. */
  function Joiners(events: seq<ReactionEvent>, ch: ChannelId): (us: seq<UserId>)
    ensures |us| <= |events|
    decreases |events|
  {
    if events == [] then []
    else
      var e := events[|events| - 1];
      var us := Joiners(events[..|events| - 1], ch);
      if e.ch == ch && !e.isBot && e.emoji == JoinEmoji then us + [e.user] else us
  }

  /** Each user once, at the position of their first occurrence. */
  function Dedup(s: seq<UserId>): (r: seq<UserId>)
    ensures forall u :: u in r <==> u in s
    ensures Distinct(r)
    decreases |s|
  {
    if s == [] then []
    else
      var r := Dedup(s[..|s| - 1]);
      assert forall u :: u in s[..|s| - 1] ==> u in s;
      if s[|s| - 1] in s[..|s| - 1] then r
      else
        assert forall i :: 0 <= i < |r| ==> r[i] in r;
        r + [s[|s| - 1]]
  }

  /** While a lobby is open, its roster is exactly the distinct joiners in
      order of their first 👍, whatever else happens in other channels. */
  lemma {:induction false} RosterIsFirstReactionOrder(setup: SetupState, events: seq<ReactionEvent>, ch: ChannelId)
    requires SetupWF(setup) && ch in setup.waitingForPlayers && setup.joinedPlayers[ch] == []
    ensures Replay(setup, events).joinedPlayers[ch] == Dedup(Joiners(events, ch))
    decreases |events|
  {
    if events != [] {
      var prefix := events[..|events| - 1];
      RosterIsFirstReactionOrder(setup, prefix, ch);
    }
  }

  /** `cleanup_setup_state` (bot.py:622-631): forgets the channel's lobby,
      roster and genre, tolerating entries that are already gone. The
      `player_count` entry is left alone. */
  function CleanupSetupState(setup: SetupState, ch: ChannelId): (r: SetupState)
    ensures ch !in r.waitingForPlayers && ch !in r.collectingPreferences
    ensures ch !in r.joinedPlayers && ch !in r.gameType
    ensures r.playerCount == setup.playerCount
    ensures SetupOthersUnchanged(setup, r, ch)
    ensures SetupWF(setup) ==> SetupWF(r)
  {
    SetupState(
      setup.waitingForPlayers - {ch},
      setup.collectingPreferences - {ch},
      setup.playerCount,
      setup.joinedPlayers - {ch},
      setup.gameType - {ch})
  }

  /** Cleaning up twice is cleaning up once. */
  lemma CleanupIdempotent(setup: SetupState, ch: ChannelId)
    ensures CleanupSetupState(CleanupSetupState(setup, ch), ch) == CleanupSetupState(setup, ch)
  {
  }

  /** What `start_game` finds when its ten-second join window ends (bot.py:174-179). */
  datatype LobbyOutcome =
    | Vanished                       // the lobby was cleaned up meanwhile: nothing happens
    | Cancelled(setup: SetupState)   // fewer than two players: the lobby is cleaned up
    | Proceed                        // the genre vote starts

  function CloseLobby(setup: SetupState, ch: ChannelId): (r: LobbyOutcome)
    requires SetupWF(setup)
    ensures r.Vanished? <==> ch !in setup.waitingForPlayers
    ensures r.Cancelled? <==> ch in setup.waitingForPlayers && |setup.joinedPlayers[ch]| < 2
    ensures r.Proceed? ==> |setup.joinedPlayers[ch]| >= 2
    ensures r.Cancelled? ==> ch !in r.setup.waitingForPlayers && ch !in r.setup.joinedPlayers
                             && ch !in r.setup.gameType && r.setup == CleanupSetupState(setup, ch)
  {
    if ch !in setup.waitingForPlayers then Vanished
    else if |setup.joinedPlayers[ch]| < 2 then Cancelled(CleanupSetupState(setup, ch))
    else Proceed
  }

  /** The step after the genre vote: `game_type` is recorded (bot.py:287) and
      `start_game_session` reads back the genre and the roster (bot.py:349-350)
      before its first suspension. If the lobby was cleaned up during the
      vote, the roster lookup raises. */
  datatype GenreChosen = GenreChosen(setup: SetupState, roster: Result<seq<UserId>>)

  function ChooseGenre(setup: SetupState, ch: ChannelId, genre: Genre): (r: GenreChosen)
    ensures ch in r.setup.gameType && r.setup.gameType[ch] == genre
    ensures r.roster.Ok? <==> ch in setup.joinedPlayers
    ensures r.roster.Ok? ==> r.roster.value == setup.joinedPlayers[ch]
    ensures r.roster.Err? ==> r.roster.fault == KeyError("joined_players", ch)
    ensures SetupOthersUnchanged(setup, r.setup, ch)
    ensures r.setup.joinedPlayers == setup.joinedPlayers && r.setup.waitingForPlayers == setup.waitingForPlayers
    ensures SetupWF(setup) ==> SetupWF(r.setup)
  {
    var s := setup.(gameType := setup.gameType[ch := genre]);
    if ch in s.joinedPlayers then GenreChosen(s, Ok(s.joinedPlayers[ch]))
    else GenreChosen(s, Err(KeyError("joined_players", ch)))
  }

  /** The outcome of `json.loads` on the objectives reply (bot.py:487-492):
      either it did not parse, or it parsed to an object whose fields
      overwrite those of the state record. Only the two fields the prompt
      asks for are modelled. */
  datatype ObjectiveUpdate =
    | Unparsed
    | Parsed(mainObjective: Option<string>, keyRequirements: Option<seq<string>>)

  /** The record of bot.py:444-450 after the `update` of bot.py:490. */
  function InitialState(scene: string, objectives: ObjectiveUpdate): (s: GameState)
    ensures s.currentScene == scene && s.progress == 0 && s.completedObjectives == []
    ensures objectives.Unparsed? ==> s.mainObjective == "" && s.keyRequirements == []
    ensures objectives.Parsed? && objectives.mainObjective.Some? ==>
              s.mainObjective == objectives.mainObjective.value
    ensures objectives.Parsed? && objectives.mainObjective.None? ==> s.mainObjective == ""
    ensures objectives.Parsed? && objectives.keyRequirements.Some? ==>
              s.keyRequirements == objectives.keyRequirements.value
    ensures objectives.Parsed? && objectives.keyRequirements.None? ==> s.keyRequirements == []
  {
    var s := GameState(scene, 0, [], "", []);
    match objectives
    case Unparsed => s
    case Parsed(m, k) =>
      var s1 := if m.Some? then s.(mainObjective := m.value) else s;
      if k.Some? then s1.(keyRequirements := k.value) else s1
  }

  /** The opening scene: the completion service's reply, or its apology in
      the chosen language. The chosen language is always a known code. */
  function OpeningScene(opening: Completion, lang: Lang): (scene: string)
    ensures opening.Replied? ==> scene == opening.text
    ensures opening.Failed? ==> Ok(scene) == ErrorFallback(LangCode(lang))
  {
    AiResponse(opening, LangCode(lang)).value
  }

  /** The writes of `start_game_session` (bot.py:392-616, with the history
      append of bot.py:692-701): the language, the state record, an empty
      history, the active flag and the roster, then the "Game Started" event.
      The code makes these writes on both sides of the suspensions at
      bot.py:495-611; here they form one step. Nothing is checked first, so a
      running game on the channel is overwritten. */
  function Promote(data: GameData, ch: ChannelId, players: seq<UserId>, lang: Lang,
                   opening: Completion, objectives: ObjectiveUpdate): (r: GameData)
    ensures ch in r.activeGames && ch in r.gamePlayers && r.gamePlayers[ch] == players
    ensures ch in r.gameLanguages && r.gameLanguages[ch] == lang
    ensures ch in r.gameStates && r.gameStates[ch] == InitialState(OpeningScene(opening, lang), objectives)
    ensures ch in r.storyHistory && r.storyHistory[ch] == [StoryEvent("Game Started", "System", OpeningScene(opening, lang))]
    ensures r.gameObjectives == data.gameObjectives
    ensures OthersUnchanged(data, r, ch)
    ensures SessionsWF(data) ==> SessionsWF(r)
  {
    var scene := OpeningScene(opening, lang);
    data.(gameLanguages := data.gameLanguages[ch := lang],
          gameStates := data.gameStates[ch := InitialState(scene, objectives)],
          storyHistory := data.storyHistory[ch := [StoryEvent("Game Started", "System", scene)]],
          activeGames := data.activeGames + {ch},
          gamePlayers := data.gamePlayers[ch := players])
  }

  /** The opening event records the opening scene. */
  lemma PromotedHistoryMatchesScene(data: GameData, ch: ChannelId, players: seq<UserId>, lang: Lang,
                                    opening: Completion, objectives: ObjectiveUpdate)
    ensures var r := Promote(data, ch, players, lang, opening, objectives);
            |r.storyHistory[ch]| == 1 && r.storyHistory[ch][0].result == r.gameStates[ch].currentScene
  {
  }

  /** Between the last writes of `start_game_session` and its `cleanup_setup_state`
      (bot.py:614-620, across the suspension of bot.py:619) the channel is both
      a running game and an open lobby. In that window a new `!start_game` is
      refused, yet a 👍 still joins the lobby roster. The model copies the
      roster into `gamePlayers` at promotion, so here the late joiner stays
      outside the game; in the program `game_players[ch]` is the very list
      object of `joined_players[ch]` (bot.py:350, 616), so the late joiner
      becomes a player and stays one after the cleanup. */
  lemma SessionAndLobbyOverlap(data: GameData, setup: SetupState, ch: ChannelId, players: seq<UserId>,
                               lang: Lang, opening: Completion, objectives: ObjectiveUpdate, u: UserId)
    requires SetupWF(setup) && ch in setup.waitingForPlayers && u !in setup.joinedPlayers[ch]
    ensures StartGame(Promote(data, ch, players, lang, opening, objectives), setup, ch).Refused?
    ensures OnReactionAdd(setup, ch, u, false, JoinEmoji).joinedPlayers[ch] == setup.joinedPlayers[ch] + [u]
    ensures ch !in CleanupSetupState(setup, ch).waitingForPlayers && ch !in CleanupSetupState(setup, ch).joinedPlayers
  {
  }

  /** The registries after the genre step and `start_game_session`, and the
      exception if the roster read of bot.py:350 raised. */
  datatype SessionStart = SessionStart(data: GameData, setup: SetupState, fault: Option<Fault>)

  /** From the genre write of bot.py:287 to the cleanup of bot.py:620, with the
      language chosen by `lang` from the fetched reactions. The roster is the
      lobby's, read at bot.py:350; if the lobby was cleaned up meanwhile the
      read raises and nothing else happens. */
  function SessionWith(data: GameData, setup: SetupState, ch: ChannelId, genre: Genre,
                       lang: Lang, opening: Completion, objectives: ObjectiveUpdate): (r: SessionStart)
    ensures r.fault.None? <==> ch in setup.joinedPlayers
    ensures r.fault.Some? ==> r.fault == Some(KeyError("joined_players", ch)) && r.data == data
                              && r.setup == ChooseGenre(setup, ch, genre).setup
    ensures r.fault.None? ==> && ch in r.data.activeGames && ch in r.data.gamePlayers
                              && r.data.gamePlayers[ch] == setup.joinedPlayers[ch]
                              && ch in r.data.gameLanguages && r.data.gameLanguages[ch] == lang
    ensures r.fault.None? ==> ch !in r.setup.waitingForPlayers && ch !in r.setup.joinedPlayers && ch !in r.setup.gameType
    ensures SessionsWF(data) ==> SessionsWF(r.data)
    ensures SetupWF(setup) ==> SetupWF(r.setup)
    ensures SetupOthersUnchanged(setup, r.setup, ch) && OthersUnchanged(data, r.data, ch)
  {
    var chosen := ChooseGenre(setup, ch, genre);
    match chosen.roster
    case Err(f) => SessionStart(data, chosen.setup, Some(f))
    case Ok(players) =>
      SessionStart(Promote(data, ch, players, lang, opening, objectives), CleanupSetupState(chosen.setup, ch), None)
  }

  /** `start_game_session` as written: the language is the vote of bot.py:377-392,
      which picks English when only the bot reacted. */
  function StartGameSession(data: GameData, setup: SetupState, ch: ChannelId, genre: Genre,
                            langReactions: seq<Reaction>, opening: Completion, objectives: ObjectiveUpdate)
    : (r: SessionStart)
    ensures r.fault.None? <==> ch in setup.joinedPlayers
    ensures r.fault.None? ==> && ch in r.data.gamePlayers && r.data.gamePlayers[ch] == setup.joinedPlayers[ch]
                              && ch in r.data.gameLanguages && r.data.gameLanguages[ch] == LanguageVote(langReactions)
    ensures SessionsWF(data) && SetupWF(setup) ==> SessionsWF(r.data) && SetupWF(r.setup)
  {
    SessionWith(data, setup, ch, genre, LanguageVote(langReactions), opening, objectives)
  }

  /** `start_game_session` with the corrected language default: bilingual when
      no player voted. */
  function StartGameSessionCorrected(data: GameData, setup: SetupState, ch: ChannelId, genre: Genre,
                                     langReactions: seq<Reaction>, opening: Completion, objectives: ObjectiveUpdate)
    : (r: SessionStart)
    ensures r.fault.None? <==> ch in setup.joinedPlayers
    ensures r.fault.None? ==> && ch in r.data.gamePlayers && r.data.gamePlayers[ch] == setup.joinedPlayers[ch]
                              && ch in r.data.gameLanguages
                              && r.data.gameLanguages[ch] == LanguageVoteCorrected(langReactions)
    ensures SessionsWF(data) && SetupWF(setup) ==> SessionsWF(r.data) && SetupWF(r.setup)
  {
    SessionWith(data, setup, ch, genre, LanguageVoteCorrected(langReactions), opening, objectives)
  }

  /** A game whose language vote only the bot reacted to is played in English
      as written, and bilingually with the correction. */
  lemma BotOnlyVoteSessionLanguage(data: GameData, setup: SetupState, ch: ChannelId, genre: Genre,
                                   opening: Completion, objectives: ObjectiveUpdate)
    requires ch in setup.joinedPlayers
    ensures StartGameSession(data, setup, ch, genre, BotLangReactions, opening, objectives).data.gameLanguages[ch] == En
    ensures StartGameSessionCorrected(data, setup, ch, genre, BotLangReactions, opening, objectives).data.gameLanguages[ch] == Both
  {
    BotReactionsOnlyGiveEnglish();
    BotReactionsOnlyGiveBilingual();
  }

  /** Promotion does not look at the channel's current game: a game already
      running there loses its roster and record. */
  lemma PromoteOverwritesRunningGame(data: GameData, ch: ChannelId, players: seq<UserId>, lang: Lang,
                                     opening: Completion, objectives: ObjectiveUpdate)
    requires ch in data.activeGames && ch in data.gamePlayers && data.gamePlayers[ch] != players
    ensures Promote(data, ch, players, lang, opening, objectives).gamePlayers[ch] != data.gamePlayers[ch]
  {
  }
}

=== FILE: text.dfy ===
/**
 The handful of Python `str` operations the bot relies on, written out over
 `seq<char>`: `isspace`, `lstrip()`, `rfind`, `startswith`, `replace(pat, "")`
 and `str()` of a non-negative integer.
 */
module Text {

  /** Python's `str.isspace()` for a single character: the code points CPython
      classifies as whitespace (bidirectional class WS, B or S, or category Zs). */
  predicate IsSpace(c: char) {
    || ('\t' <= c <= '\r')
    || ('\U{1C}' <= c <= '\U{20}')
    || c == '\U{85}' || c == '\U{A0}' || c == '\U{1680}'
    || ('\U{2000}' <= c <= '\U{200A}')
    || c == '\U{2028}' || c == '\U{2029}' || c == '\U{202F}' || c == '\U{205F}'
    || c == '\U{3000}'
  }

  predicate AllSpace(s: string) {
    forall i :: 0 <= i < |s| ==> IsSpace(s[i])
  }

  /** Number of characters `s.lstrip()` removes: the maximal whitespace prefix. */
  function LeadingSpace(s: string): (n: nat)
    ensures n <= |s|
    ensures AllSpace(s[..n])
    ensures n < |s| ==> !IsSpace(s[n])
  {
    if s == [] || !IsSpace(s[0]) then 0 else 1 + LeadingSpace(s[1..])
  }

  /** Python's `s.lstrip()` with no argument. */
  function LStrip(s: string): (r: string)
    ensures |r| <= |s|
    ensures s == s[..|s| - |r|] + r
    ensures AllSpace(s[..|s| - |r|])
    ensures r == [] || !IsSpace(r[0])
  {
    s[LeadingSpace(s)..]
  }

  /** Python's `s.rfind(c)` for a one-character needle: the last index of `c`, or -1. */
  function RFind(s: string, c: char): (r: int)
    ensures -1 <= r < |s|
    ensures r == -1 <==> c !in s
    ensures r >= 0 ==> s[r] == c && forall j :: r < j < |s| ==> s[j] != c
  {
    if s == [] then -1
    else if s[|s| - 1] == c then |s| - 1
    else
      assert s == s[..|s| - 1] + [s[|s| - 1]];
      RFind(s[..|s| - 1], c)
  }

  /** Python's `s.startswith(prefix)`. */
  predicate StartsWith(s: string, prefix: string) {
    |prefix| <= |s| && s[..|prefix|] == prefix
  }

  /** True when `pat` occurs somewhere in `s` as a contiguous block. */
  predicate Occurs(s: string, pat: string)
    decreases |s|
  {
    StartsWith(s, pat) || (s != [] && Occurs(s[1..], pat))
  }

  /** Python's `s.replace(pat, "")` for a non-empty `pat`: one scan from the left,
      dropping each occurrence it meets and resuming after it. */
  function RemoveAll(s: string, pat: string): (r: string)
    requires pat != []
    ensures |r| <= |s|
    decreases |s|
  {
    if s == [] then []
    else if StartsWith(s, pat) then RemoveAll(s[|pat|..], pat)
    else [s[0]] + RemoveAll(s[1..], pat)
  }

  /** Text that does not contain the pattern comes back unchanged. */
  lemma {:induction false} RemoveAllAbsent(s: string, pat: string)
    requires pat != []
    requires !Occurs(s, pat)
    ensures RemoveAll(s, pat) == s
    decreases |s|
  {
    if s != [] {
      RemoveAllAbsent(s[1..], pat);
      assert [s[0]] + s[1..] == s;
    }
  }

  /** A leading occurrence is removed and the scan continues on the rest. */
  lemma RemoveAllLeading(pat: string, rest: string)
    requires pat != []
    ensures RemoveAll(pat + rest, pat) == RemoveAll(rest, pat)
  {
    assert StartsWith(pat + rest, pat);
    assert (pat + rest)[|pat|..] == rest;
  }

  /** Characters that start no occurrence are kept, in order. */
  lemma {:induction false} RemoveAllSkips(p: string, t: string, pat: string)
    requires pat != []
    requires forall i :: 0 <= i < |p| ==> !StartsWith(p[i..] + t, pat)
    ensures RemoveAll(p + t, pat) == p + RemoveAll(t, pat)
    decreases |p|
  {
    if p != [] {
      assert !StartsWith(p[0..] + t, pat);
      assert p[0..] == p;
      forall i | 0 <= i < |p[1..]|
        ensures !StartsWith(p[1..][i..] + t, pat)
      {
        assert p[1..][i..] == p[i + 1..];
      }
      RemoveAllSkips(p[1..], t, pat);
      assert (p + t)[1..] == p[1..] + t;
      assert (p + t)[0] == p[0];
      assert RemoveAll(p + t, pat) == [p[0]] + RemoveAll(p[1..] + t, pat);
      assert [p[0]] + p[1..] == p;
    } else {
      assert p + t == t;
    }
  }

  /** One occurrence between a prefix that starts no match and a tail too short to hold one. */
  lemma RemoveAllAroundOne(p: string, pat: string, rest: string)
    requires pat != [] && |rest| < |pat|
    requires forall i :: 0 <= i < |p| ==> !StartsWith(p[i..] + (pat + rest), pat)
    ensures RemoveAll(p + pat + rest, pat) == p + rest
  {
    RemoveAllSkips(p, pat + rest, pat);
    assert p + (pat + rest) == p + pat + rest;
    RemoveAllLeading(pat, rest);
    RemoveAllAbsentShort(rest, pat);
  }

  lemma RemoveAllAbsentShort(s: string, pat: string)
    requires pat != [] && |s| < |pat|
    ensures RemoveAll(s, pat) == s
  {
    ShortNeverOccurs(s, pat);
    RemoveAllAbsent(s, pat);
  }

  lemma {:induction false} ShortNeverOccurs(s: string, pat: string)
    requires |s| < |pat|
    ensures !Occurs(s, pat)
    decreases |s|
  {
    if s != [] {
      ShortNeverOccurs(s[1..], pat);
    }
  }

  function DigitChar(d: nat): (c: char)
    requires d < 10
    ensures '0' <= c <= '9'
  {
    ['0', '1', '2', '3', '4', '5', '6', '7', '8', '9'][d]
  }

  predicate AllDigits(s: string) {
    forall i :: 0 <= i < |s| ==> '0' <= s[i] <= '9'
  }

  /** Python's `str(n)` / `f"{n}"` for a non-negative integer: decimal, no leading zeros. */
  function Decimal(n: nat): (s: string)
    ensures |s| >= 1
    ensures AllDigits(s)
    ensures s[0] == '0' ==> n == 0
  {
    if n < 10 then [DigitChar(n)] else Decimal(n / 10) + [DigitChar(n % 10)]
  }

  /** Reads a string of decimal digits back as a number. */
  function ParseDecimal(s: string): nat
    requires AllDigits(s)
  {
    if s == [] then 0
    else ParseDecimal(s[..|s| - 1]) * 10 + ((s[|s| - 1] as int) - ('0' as int))
  }

  lemma DigitCharValue(d: nat)
    requires d < 10
    ensures (DigitChar(d) as int) - ('0' as int) == d
  {
  }

  /** Rendering then reading back gives the number: `Decimal` loses nothing. */
  lemma {:induction false} ParseDecimalInvertsDecimal(n: nat)
    ensures ParseDecimal(Decimal(n)) == n
  {
    if n < 10 {
      DigitCharValue(n);
    } else {
      var s := Decimal(n);
      assert s[..|s| - 1] == Decimal(n / 10);
      ParseDecimalInvertsDecimal(n / 10);
      DigitCharValue(n % 10);
    }
  }

  /** Distinct numbers render differently, so comparing `str(a) == str(b)` is comparing `a == b`. */
  lemma DecimalInjective(a: nat, b: nat)
    ensures Decimal(a) == Decimal(b) <==> a == b
  {
    if Decimal(a) == Decimal(b) {
      ParseDecimalInvertsDecimal(a);
      ParseDecimalInvertsDecimal(b);
    }
  }
}

=== FILE: votes.dfy ===
/**
 Reaction-based voting: the genre vote of `start_game` (bot.py:264-287) and the
 language vote of `start_game_session` (bot.py:377-392). Counts are read off the
 vote message's reactions, one less than the reaction count to discount the
 bot's own reaction. The two votes break ties differently, as the code does:
 the genre is a random pick among the leaders, the language is the first leader
 in option order.
 */
module Votes {
  import opened Common

  /** The keys of GAME_TYPES (bot.py:65-82). */
  datatype Genre =
    | Mystery | Murder | Horror | Fantasy | Detective | Adventure | Heist | Survival
    | Conspiracy | Comedy | Espionage | Supernatural | Historical | SciFi | Psychological | Escape

  /** GAME_TYPES in insertion order. */
  const Genres: seq<Genre> := [
    Mystery, Murder, Horror, Fantasy, Detective, Adventure, Heist, Survival,
    Conspiracy, Comedy, Espionage, Supernatural, Historical, SciFi, Psychological, Escape
  ]

  /** Position of the genre in GAME_TYPES. */
  function GenreRank(g: Genre): (r: nat)
    ensures r < |Genres| && Genres[r] == g
  {
    match g
    case Mystery => 0 case Murder => 1 case Horror => 2 case Fantasy => 3
    case Detective => 4 case Adventure => 5 case Heist => 6 case Survival => 7
    case Conspiracy => 8 case Comedy => 9 case Espionage => 10 case Supernatural => 11
    case Historical => 12 case SciFi => 13 case Psychological => 14 case Escape => 15
  }

  /** The voting emoji of each genre, code point by code point. */
  function GenreEmoji(g: Genre): string {
    match g
    case Mystery => "\U{1F52E}"
    case Murder => "\U{1F52A}"
    case Horror => "\U{1F47B}"
    case Fantasy => "\U{1F409}"
    case Detective => "\U{1F50D}"
    case Adventure => "\U{2694}\U{FE0F}"
    case Heist => "\U{1F48E}"
    case Survival => "\U{1F3D5}\U{FE0F}"
    case Conspiracy => "\U{1F575}\U{FE0F}"
    case Comedy => "\U{1F602}"
    case Espionage => "\U{1F574}\U{FE0F}"
    case Supernatural => "\U{1F465}"
    case Historical => "\U{1F4DC}"
    case SciFi => "\U{1F680}"
    case Psychological => "\U{1F9E0}"
    case Escape => "\U{1F6AA}"
  }

  /** The codes of LANGUAGE_OPTIONS (bot.py:95-99). */
  datatype Lang = En | Zh | Both

  /** LANGUAGE_OPTIONS in insertion order. */
  const Languages: seq<Lang> := [En, Zh, Both]

  function LangRank(l: Lang): (r: nat)
    ensures r < |Languages| && Languages[r] == l
  {
    match l
    case En => 0 case Zh => 1 case Both => 2
  }

  /** The code stored in `game_languages`. */
  function LangCode(l: Lang): (c: string)
    ensures c in {"en", "zh", "both"}
  {
    match l
    case En => "en" case Zh => "zh" case Both => "both"
  }

  function LangEmoji(l: Lang): string {
    match l
    case En => "\U{1F1FA}\U{1F1F8}"
    case Zh => "\U{1F1F9}\U{1F1FC}"
    case Both => "\U{1F310}"
  }

  /** One reaction aggregate of a fetched message: its emoji, as `str(reaction.emoji)`
      renders it, and how many users added it. */
  datatype Reaction = Reaction(emoji: string, count: int)

  /** The count of the last reaction with this emoji. The inner loops of
      bot.py:266-268 and bot.py:379-381 overwrite the entry on every match, so
      the last matching reaction decides. */
  function LastCount(reactions: seq<Reaction>, emoji: string): (r: Option<int>)
    ensures r.None? <==> forall i :: 0 <= i < |reactions| ==> reactions[i].emoji != emoji
    ensures r.Some? ==> exists i :: 0 <= i < |reactions| && reactions[i] == Reaction(emoji, r.value)
                           && forall j :: i < j < |reactions| ==> reactions[j].emoji != emoji
    decreases |reactions|
  {
    if reactions == [] then None
    else
      var last := reactions[|reactions| - 1];
      var prefix := reactions[..|reactions| - 1];
      assert forall i :: 0 <= i < |prefix| ==> prefix[i] == reactions[i];
      if last.emoji == emoji then Some(last.count) else LastCount(prefix, emoji)
  }

  /** The vote dictionary, one slot per option in option order: `Some(v)` when the
      option has the entry `v` (its reaction count less the bot's own), `None`
      when it has no entry. Python dicts keep insertion order, and the outer loop
      inserts in option order, so the entries are the `Some` slots read left to right. */
  function Tally(emojis: seq<string>, reactions: seq<Reaction>): (ballot: seq<Option<int>>)
    ensures |ballot| == |emojis|
    ensures forall k :: 0 <= k < |ballot| ==>
              (ballot[k].Some? <==> exists i :: 0 <= i < |reactions| && reactions[i].emoji == emojis[k])
    ensures forall k :: 0 <= k < |ballot| && ballot[k].Some? ==>
              exists i :: 0 <= i < |reactions| && reactions[i] == Reaction(emojis[k], ballot[k].value + 1)
                          && forall j :: i < j < |reactions| ==> reactions[j].emoji != emojis[k]
  {
    seq(|emojis|, k requires 0 <= k < |emojis| =>
      match LastCount(reactions, emojis[k])
      case None => None
      case Some(c) => Some(c - 1))
  }

  /** The emoji column of GAME_TYPES, in key order. */
  function GenreEmojis(): (es: seq<string>)
    ensures |es| == |Genres|
    ensures forall k :: 0 <= k < |es| ==> es[k] == GenreEmoji(Genres[k])
  {
    seq(|Genres|, k requires 0 <= k < |Genres| => GenreEmoji(Genres[k]))
  }

  /** The keys of LANGUAGE_OPTIONS, in order. */
  function LangEmojis(): (es: seq<string>)
    ensures |es| == |Languages|
    ensures forall k :: 0 <= k < |es| ==> es[k] == LangEmoji(Languages[k])
  {
    seq(|Languages|, k requires 0 <= k < |Languages| => LangEmoji(Languages[k]))
  }

  /** The dictionary is non-empty: some option's emoji is among the reactions.
      The bot adds every option's emoji itself before the window (bot.py:255,
      bot.py:367-368), so on a fetched message this holds even when no player
      reacted; it is not "somebody voted". */
  predicate HasEntries(ballot: seq<Option<int>>) {
    exists k :: 0 <= k < |ballot| && ballot[k].Some?
  }

  /** `max(vote_counts.values())`. */
  function MaxVotes(ballot: seq<Option<int>>): (m: int)
    requires HasEntries(ballot)
    ensures forall k :: 0 <= k < |ballot| && ballot[k].Some? ==> ballot[k].value <= m
    ensures exists k :: 0 <= k < |ballot| && ballot[k] == Some(m)
    decreases |ballot|
  {
    var prefix := ballot[..|ballot| - 1];
    var last := ballot[|ballot| - 1];
    assert forall k :: 0 <= k < |prefix| ==> prefix[k] == ballot[k];
    if !HasEntries(prefix) then last.value
    else
      var m := MaxVotes(prefix);
      if last.Some? && last.value > m then last.value else m
  }

  /** `[t for t, v in vote_counts.items() if v == max_votes]`: the slots holding
      `m`, in dictionary order. */
  function Leaders(ballot: seq<Option<int>>, m: int): (ks: seq<nat>)
    ensures forall k: nat :: k in ks <==> k < |ballot| && ballot[k] == Some(m)
    ensures forall i, j :: 0 <= i < j < |ks| ==> ks[i] < ks[j]
    decreases |ballot|
  {
    if ballot == [] then []
    else
      var prefix := ballot[..|ballot| - 1];
      assert forall k :: 0 <= k < |prefix| ==> prefix[k] == ballot[k];
      var ks := Leaders(prefix, m);
      if ballot[|ballot| - 1] == Some(m) then
        forall i | 0 <= i < |ks| ensures ks[i] < |ballot| - 1 {
          assert ks[i] in ks;
        }
        assert forall k: nat :: k in ks + [|ballot| - 1] <==> k in ks || k == |ballot| - 1;
        ks + [|ballot| - 1]
      else ks
  }

  /** `list(range(n))`. */
  function Indices(n: nat): (ks: seq<nat>)
    ensures |ks| == n
    ensures forall k :: 0 <= k < n ==> ks[k] == k
  {
    seq(n, k requires 0 <= k < n => k)
  }

  /** The slots `random.choice` draws from: every genre when the dictionary is
      empty (bot.py:271-272), otherwise the leaders (bot.py:276-281). When only
      the bot's reactions are present every entry is 0, so all genres tie and
      the draw comes from the tie branch instead (`BotReactionsOnlyTieAllGenres`). */
  function GenreCandidates(ballot: seq<Option<int>>): (cs: seq<nat>)
    requires |ballot| == |Genres|
    ensures |cs| >= 1
    ensures forall i :: 0 <= i < |cs| ==> cs[i] < |Genres|
  {
    if !HasEntries(ballot) then Indices(|Genres|)
    else
      var m := MaxVotes(ballot);
      var k :| 0 <= k < |ballot| && ballot[k] == Some(m);
      var ks := Leaders(ballot, m);
      assert k in ks;
      assert forall i :: 0 <= i < |ks| ==> ks[i] in ks;
      ks
  }

  /** The genre vote resolution of bot.py:271-285. `roll` stands for the index
      `random.choice` draws. With a single leader the only index is 0, which is
      `winners[0]` of bot.py:284. */
  function ResolveGenre(ballot: seq<Option<int>>, roll: nat): (g: Genre)
    requires |ballot| == |Genres|
    requires roll < |GenreCandidates(ballot)|
    ensures HasEntries(ballot) ==> ballot[GenreRank(g)] == Some(MaxVotes(ballot))
  {
    var k := GenreCandidates(ballot)[roll];
    AllGenresRanked(k);
    Genres[k]
  }

  lemma AllGenresRanked(k: nat)
    requires k < |Genres|
    ensures GenreRank(Genres[k]) == k
  {
  }

  /** With an empty dictionary every genre can be drawn. */
  lemma NoEntriesAnyGenre(ballot: seq<Option<int>>, g: Genre)
    requires |ballot| == |Genres| && !HasEntries(ballot)
    ensures exists roll: nat :: roll < |GenreCandidates(ballot)| && ResolveGenre(ballot, roll) == g
  {
    assert ResolveGenre(ballot, GenreRank(g)) == g;
  }

  /** Every genre tied for the most votes can be drawn. */
  lemma EveryLeaderCanWin(ballot: seq<Option<int>>, g: Genre)
    requires |ballot| == |Genres| && HasEntries(ballot)
    requires ballot[GenreRank(g)] == Some(MaxVotes(ballot))
    ensures exists roll: nat :: roll < |GenreCandidates(ballot)| && ResolveGenre(ballot, roll) == g
  {
    var cs := GenreCandidates(ballot);
    assert GenreRank(g) in cs;
    var roll :| 0 <= roll < |cs| && cs[roll] == GenreRank(g);
    assert ResolveGenre(ballot, roll) == g;
  }

  /** A strict leader wins whatever the random source does. */
  lemma UniqueLeaderWins(ballot: seq<Option<int>>, g: Genre, roll: nat)
    requires |ballot| == |Genres| && ballot[GenreRank(g)].Some?
    requires forall k :: 0 <= k < |ballot| && k != GenreRank(g) && ballot[k].Some? ==>
               ballot[k].value < ballot[GenreRank(g)].value
    requires roll < |GenreCandidates(ballot)|
    ensures ResolveGenre(ballot, roll) == g
  {
    var r := ResolveGenre(ballot, roll);
    assert ballot[GenreRank(r)] == Some(MaxVotes(ballot));
    assert GenreRank(r) == GenreRank(g);
  }

  /** The genre vote as the bot runs it on the fetched vote message. */
  function GenreVote(reactions: seq<Reaction>, roll: nat): (g: Genre)
    requires roll < |GenreCandidates(Tally(GenreEmojis(), reactions))|
    ensures var ballot := Tally(GenreEmojis(), reactions);
            HasEntries(ballot) ==> ballot[GenreRank(g)] == Some(MaxVotes(ballot))
  {
    ResolveGenre(Tally(GenreEmojis(), reactions), roll)
  }

  /** A genre takes part in the vote exactly when its emoji is among the reactions. */
  lemma GenreEntryIffReacted(reactions: seq<Reaction>, g: Genre)
    ensures Tally(GenreEmojis(), reactions)[GenreRank(g)].Some? <==>
              exists i :: 0 <= i < |reactions| && reactions[i].emoji == GenreEmoji(g)
  {
  }

  /** Python's `max(lang_votes.items(), key=lambda x: x[1])`: scanning in order,
      a later item replaces the best so far only when strictly larger, so the
      result is the first slot holding the maximum. */
  function FirstMax(ballot: seq<Option<int>>): (k: nat)
    requires HasEntries(ballot)
    ensures k < |ballot| && ballot[k].Some?
    ensures forall j :: 0 <= j < |ballot| && ballot[j].Some? ==> ballot[j].value <= ballot[k].value
    ensures forall j :: 0 <= j < k && ballot[j].Some? ==> ballot[j].value < ballot[k].value
    decreases |ballot|
  {
    var prefix := ballot[..|ballot| - 1];
    var last := ballot[|ballot| - 1];
    assert forall j :: 0 <= j < |prefix| ==> prefix[j] == ballot[j];
    if !HasEntries(prefix) then |ballot| - 1
    else
      var best := FirstMax(prefix);
      if last.Some? && last.value > ballot[best].value then |ballot| - 1 else best
  }

  /** The language vote resolution of bot.py:384-388, as written: bilingual when
      the dictionary is empty, else the first option holding the most votes. */
  function ResolveLanguage(ballot: seq<Option<int>>): (l: Lang)
    requires |ballot| == |Languages|
    ensures !HasEntries(ballot) ==> l == Both
    ensures HasEntries(ballot) ==> ballot[LangRank(l)] == Some(MaxVotes(ballot))
    ensures HasEntries(ballot) ==> forall j :: 0 <= j < LangRank(l) && ballot[j].Some? ==>
                                   ballot[j].value < MaxVotes(ballot)
  {
    if !HasEntries(ballot) then Both
    else
      var k := FirstMax(ballot);
      var m := MaxVotes(ballot);
      assert ballot[k] == Some(m) by {
        var j :| 0 <= j < |ballot| && ballot[j] == Some(m);
      }
      AllLangsRanked(k);
      Languages[k]
  }

  lemma AllLangsRanked(k: nat)
    requires k < |Languages|
    ensures LangRank(Languages[k]) == k
  {
  }

  /** A tie goes to the option listed first in LANGUAGE_OPTIONS: English before
      Chinese before bilingual. */
  lemma LanguageTieGoesToEarliest(ballot: seq<Option<int>>, l: Lang)
    requires |ballot| == |Languages| && HasEntries(ballot)
    requires ballot[LangRank(l)] == Some(MaxVotes(ballot))
    ensures LangRank(ResolveLanguage(ballot)) <= LangRank(l)
  {
  }

  /** The language vote as the bot runs it on the fetched vote message. */
  function LanguageVote(reactions: seq<Reaction>): (l: Lang)
    ensures var ballot := Tally(LangEmojis(), reactions);
            (!HasEntries(ballot) ==> l == Both)
            && (HasEntries(ballot) ==> ballot[LangRank(l)] == Some(MaxVotes(ballot)))
  {
    ResolveLanguage(Tally(LangEmojis(), reactions))
  }
  /** The bot's own reactions on the language message, one per option
      (bot.py:367-368), with no player reacting. */
  const BotLangReactions: seq<Reaction> :=
    [Reaction(LangEmoji(En), 1), Reaction(LangEmoji(Zh), 1), Reaction(LangEmoji(Both), 1)]

  /** A ballot on which every option has an entry of 0: what the tally reads
      when only the bot reacted. */
  predicate AllZero(ballot: seq<Option<int>>) {
    forall k :: 0 <= k < |ballot| ==> ballot[k] == Some(0)
  }

  /** As written, an all-zero language ballot is not "no votes": the dictionary
      has three entries, all tied, and `max` keeps the first, English. */
  lemma AllZeroLanguageGivesEnglish(ballot: seq<Option<int>>)
    requires |ballot| == |Languages| && AllZero(ballot)
    ensures ResolveLanguage(ballot) == En
  {
    assert ballot[0].Some?;
    var m := MaxVotes(ballot);
    assert m == 0;
    assert LangRank(ResolveLanguage(ballot)) == 0;
  }

  /** As written, a language vote in which nobody but the bot reacted picks
      English, not the bilingual default of bot.py:384-386. */
  lemma BotReactionsOnlyGiveEnglish()
    ensures LanguageVote(BotLangReactions) == En
  {
    var ballot := Tally(LangEmojis(), BotLangReactions);
    forall k | 0 <= k < |ballot| ensures ballot[k] == Some(0) {
      assert BotLangReactions[k].emoji == LangEmojis()[k];
    }
    AllZeroLanguageGivesEnglish(ballot);
  }

  /** Some option has an entry above 0: a player other than the bot reacted. */
  predicate SomeoneVoted(ballot: seq<Option<int>>) {
    exists k :: 0 <= k < |ballot| && ballot[k].Some? && ballot[k].value > 0
  }

  /** The language resolution bot.py:384-386 evidently intends: bilingual when
      no player voted, otherwise the first option holding the most votes. */
  function ResolveLanguageCorrected(ballot: seq<Option<int>>): (l: Lang)
    requires |ballot| == |Languages|
    ensures !SomeoneVoted(ballot) ==> l == Both
    ensures SomeoneVoted(ballot) ==> HasEntries(ballot) && ballot[LangRank(l)] == Some(MaxVotes(ballot))
                                     && MaxVotes(ballot) > 0
    ensures SomeoneVoted(ballot) ==> forall j :: 0 <= j < LangRank(l) && ballot[j].Some? ==>
                                       ballot[j].value < MaxVotes(ballot)
  {
    if SomeoneVoted(ballot) then ResolveLanguage(ballot) else Both
  }

  /** The correction changes the outcome only when no player voted. */
  lemma CorrectionAgreesWhenSomeoneVoted(ballot: seq<Option<int>>)
    requires |ballot| == |Languages|
    ensures SomeoneVoted(ballot) ==> ResolveLanguageCorrected(ballot) == ResolveLanguage(ballot)
    ensures !HasEntries(ballot) ==> ResolveLanguageCorrected(ballot) == ResolveLanguage(ballot)
  {
  }

  /** The language vote on the fetched message, with the corrected default. */
  function LanguageVoteCorrected(reactions: seq<Reaction>): (l: Lang)
    ensures var ballot := Tally(LangEmojis(), reactions);
            (!SomeoneVoted(ballot) ==> l == Both)
            && (SomeoneVoted(ballot) ==> ballot[LangRank(l)] == Some(MaxVotes(ballot)) && MaxVotes(ballot) > 0)
  {
    ResolveLanguageCorrected(Tally(LangEmojis(), reactions))
  }

  /** With the correction, a vote in which only the bot reacted is bilingual. */
  lemma BotReactionsOnlyGiveBilingual()
    ensures LanguageVoteCorrected(BotLangReactions) == Both
  {
    var ballot := Tally(LangEmojis(), BotLangReactions);
    forall k | 0 <= k < |ballot| ensures ballot[k] == Some(0) {
      assert BotLangReactions[k].emoji == LangEmojis()[k];
    }
  }

  /** For the genre the all-zero ballot of a vote nobody joined goes through
      the tie branch of bot.py:280-282, which still draws from every genre. */
  lemma BotReactionsOnlyTieAllGenres(ballot: seq<Option<int>>, g: Genre)
    requires |ballot| == |Genres| && AllZero(ballot)
    ensures HasEntries(ballot) && MaxVotes(ballot) == 0
    ensures exists roll: nat :: roll < |GenreCandidates(ballot)| && ResolveGenre(ballot, roll) == g
  {
    assert ballot[0].Some?;
    var m := MaxVotes(ballot);
    assert m == 0;
    EveryLeaderCanWin(ballot, g);
  }
}

=== FILE: wording.dfy ===
/**
 The language-dependent strings the bot builds around its content: embed
 titles, the direct-message error notice, and the text `get_ai_response`
 hands back. Language codes are the strings the bot stores: "en", "zh" or
 "both".
 */
module Wording {
  import opened Common
  import opened Text

  const TitleMark: string := "\U{1F3AD} "

  /** `get_title` (bot.py:833-839): the mark, then the English text, the
      Chinese text, or both joined by " | ". */
  function GetTitle(enText: string, zhText: string, language: string): (t: string)
    ensures StartsWith(t, TitleMark)
    ensures language == "en" ==> t[|TitleMark|..] == enText
    ensures language == "zh" ==> t[|TitleMark|..] == zhText
  {
    if language == "en" then TitleMark + enText
    else if language == "zh" then TitleMark + zhText
    else TitleMark + enText + " | " + zhText
  }

  /** Any code other than "en" and "zh" is treated as bilingual. */
  lemma TitleFallsBackToBoth(enText: string, zhText: string, language: string)
    requires language != "en" && language != "zh"
    ensures GetTitle(enText, zhText, language) == GetTitle(enText, zhText, "both")
  {
  }

  /** The bilingual title is the English title followed by the Chinese text. */
  lemma BilingualTitleExtendsEnglish(enText: string, zhText: string)
    ensures GetTitle(enText, zhText, "both") == GetTitle(enText, zhText, "en") + " | " + zhText
  {
  }

  /** `get_error_message` (bot.py:842-848): the notice shown when a character
      sheet cannot be sent by direct message. */
  function GetErrorMessage(enPrefix: string, zhPrefix: string, name: string, language: string): (m: string)
    ensures language == "en" ==> StartsWith(m, enPrefix + " " + name)
    ensures language == "zh" ==> StartsWith(m, zhPrefix + " " + name)
  {
    var en := enPrefix + " " + name + ". Please enable DMs from server members.";
    var zh := zhPrefix + " " + name + " 發送私訊。請啟用伺服器成員的私訊功能。";
    if language == "en" then en
    else if language == "zh" then zh
    else en + "\n" + zh
  }

  /** The bilingual notice is the English one, a newline, then the Chinese one,
      and every other code falls back to it. */
  lemma ErrorMessageBilingual(enPrefix: string, zhPrefix: string, name: string, language: string)
    requires language != "en" && language != "zh"
    ensures GetErrorMessage(enPrefix, zhPrefix, name, language)
              == GetErrorMessage(enPrefix, zhPrefix, name, "en") + "\n" + GetErrorMessage(enPrefix, zhPrefix, name, "zh")
  {
  }

  const FallbackEn: string := "Error: Unable to generate story. Please try again in a moment."
  const FallbackZh: string := "錯誤：無法生成故事。請稍後再試。"

  /** The apology `get_ai_response` returns when the completion call fails
      (bot.py:139-144): a lookup in a table keyed by the three codes, so any
      other code raises `KeyError`. */
  function ErrorFallback(language: string): (r: Result<string>)
    ensures r.Ok? <==> language in {"en", "zh", "both"}
    ensures language == "both" ==> r == Ok(FallbackEn + "\n\n" + FallbackZh)
  {
    if language == "en" then Ok(FallbackEn)
    else if language == "zh" then Ok(FallbackZh)
    else if language == "both" then Ok(FallbackEn + "\n\n" + FallbackZh)
    else Err(KeyError("error_messages", language))
  }

  /** The bilingual apology is the English one, a blank line, then the Chinese one. */
  lemma FallbackBilingual()
    ensures ErrorFallback("both").value == ErrorFallback("en").value + "\n\n" + ErrorFallback("zh").value
  {
  }

  /** What the completion service did with a request. The service is outside
      the model: its answer is an input. */
  datatype Completion = Replied(text: string) | Failed

  /** `get_ai_response` (bot.py:101-144). The system prompt is looked up by
      language inside the `try`, so an unknown code lands in the `except`
      branch, whose own lookup then raises. */
  function AiResponse(completion: Completion, language: string): (r: Result<string>)
    ensures r.Ok? <==> language in {"en", "zh", "both"}
    ensures r.Ok? && completion.Replied? ==> r.value == completion.text
    ensures r.Ok? && completion.Failed? ==> r == ErrorFallback(language)
  {
    if language !in {"en", "zh", "both"} then ErrorFallback(language)
    else
      match completion
      case Replied(text) => Ok(text)
      case Failed => ErrorFallback(language)
  }
}
